=== FILE: README.md ===
# Platformer game logic in Dafny

A model of the discrete game logic of a three.js side-scrolling platformer:
the player (movement, jumps with three charges, platform contacts, death and
respawn, invincibility blinking, fireballs), the level's actors (treasure
boxes that hold keys, patrolling obstacles, vertical shooters), the per-frame
update of the game session (fixed-step physics, coins, hazards, lives, key
pickup through a maths quiz, level completion), the quiz's answer counters
and the keyboard intent map.

Positions, velocities and timers are exact `real`s. Collision boxes are
three.js `Box3` values (`Geometry.Aabb`, with the empty box as its own case).

The modules follow the source files:

- `basics.dfy`: `Option`, `Abs`, and `Splice` (JavaScript `splice(i, 1)`).
- `geometry.dfy`: boxes and `checkCollision`.
- `input.dfy`: input.js.
- `quiz.dfy`: mathQuiz.js.
- `level.dfy`: level.js. Treasure boxes, obstacles and shooters are classes
  whose methods update their fields.
- `kinematics.dfy`: the arithmetic of `Player.update`, as functions on a
  `Body` value. It states how one platform contact is classified and
  resolved.
- `projectiles.dfy`: the projectile pass of `Player.updateProjectiles`, as
  functions on values. It gives the pass both as written and as corrected.
- `player.dfy`: the `Player` class. Each of its methods is proved against
  the functions of the two modules above.
- `game.dfy`: the module state of main.js, as the class `GameSession`, with
  `updateGame`, `resetPlayer`, `resetLevel` and the quiz callback.

In these places the model follows the code where a reader might expect
otherwise:

- With left and right both pressed, the horizontal speed is +5, because the
  right branch runs last. It is not 0.
- Wrong quiz answers are counted per quiz, not per question: `attempts` is
  reset only in `start`.
- A quiz that ends with two wrong answers still calls `onComplete`, so the
  key is awarded anyway.
- `resetLevel` calls `player.reset()`, which `Player` does not define (see Findings).
- The top/bottom/side classification of a platform contact is modelled as
  written, overlapping heuristics included.

## Model

| member | source | states |
|---|---|---|
| Basics.Splice | player.js:216 | `splice(i, 1)` inside the list leaves one element fewer: those before `i` stay in place, each later one moves down by one, and the multiset loses exactly the element at `i`; past the end it removes nothing |
| Basics.SpliceIsSlices | player.js:216 | inside the list, `splice(i, 1)` leaves the part before `i` followed by the part after it |
| Geometry.CenteredBox | main.js:285-288 | a box set from a centre and a size is centred on that point and has exactly that size on each axis |
| Geometry.CenteredBoxWellFormed | player.js:134-150 | a box built from a centre and non-negative half extents has min <= max on every axis |
| Geometry.CheckCollisionSymmetric | level.js:750-752 | the collision test is symmetric |
| Geometry.TouchingBoxesCollide | level.js:750-752 | boxes that only share a face collide, since the intervals are closed |
| Geometry.EmptyCollidesWithNothing | level.js:381 | an empty box (a hidden shooter projectile) collides with nothing |
| Geometry.WellFormedCollidesWithItself | level.js:750-752 | every proper box collides with itself |
| Geometry.GapOnXSeparates | level.js:750-752 | a gap on the x axis separates two boxes |
| Input.IntentOf | input.js:18-39 | for each intent, a key drives it exactly when it is one of that intent's aliases (left: ArrowLeft/a/A, right: ArrowRight/d/D, jump: space/ArrowUp/w/W, shoot: e/E) |
| Input.AfterKey | input.js:17-41 | a recognised key sets its own intent to the pressed state and leaves the other three as they were; an unrecognised key changes nothing |
| Input.AfterKeyIdempotent | input.js:17-41 | delivering the same event twice gives the same map as delivering it once |
| Input.AfterKeyCommutes | input.js:17-41 | events for different intents commute |
| Input.InputManager.constructor | input.js:2-10 | all four intents start released |
| Input.InputManager.HandleKeyEvent | input.js:17-41 | updates the map in place: the key's own intent becomes the pressed state and the others keep their values |
| Quiz.GenerateQuestion | mathQuiz.js:10-48 | for drawn factors in 3..9, a multiplication answer lies in 9..81 and a division's dividend is divisor times quotient, with the quotient in 3..9; there are exactly 4 pairwise-distinct options, the answer first, the rest taken from the random draws and within the draw range |
| Quiz.Answer | mathQuiz.js:133-160 | a correct answer adds one correct and a wrong one adds one attempt; the quiz finishes exactly at 3 correct or 2 wrong, goes on to the next question only after a correct answer short of 3, and stays active exactly while not finished |
| Quiz.CompletesAtMostOnce | mathQuiz.js:133-168 | whatever the answers, `onComplete` is called at most once per quiz, and once it is called the quiz is closed |
| Quiz.FinishesWithin | mathQuiz.js:133-160 | an open quiz lacking `3 - c` correct and `2 - a` wrong answers closes, with exactly one `onComplete`, after `(3 - c) + (2 - a) - 1` more answers |
| Quiz.QuizEndsWithinFourAnswers | mathQuiz.js:133-177 | from `start`, any four answers close the quiz with one `onComplete`; it ends with 3 correct or 2 wrong answers |
| Quiz.FinishedCounters | mathQuiz.js:133-168 | the counters never pass 3 correct and 2 wrong, and a closed quiz has reached one of the two |
| Quiz.WrongAnswersAccumulateAcrossQuestions | mathQuiz.js:170-176 | wrong, correct, then wrong on the next question closes the quiz: attempts are not reset between questions |
| Quiz.MathQuiz.constructor | mathQuiz.js:2-8 | no correct answers, no attempts, inactive |
| Quiz.MathQuiz.Start | mathQuiz.js:170-177 | resets both counters, makes the quiz active, keeps the callback and shows the first question |
| Quiz.MathQuiz.CloseDialog | mathQuiz.js:162-168 | always leaves the quiz inactive and keeps the counters |
| Quiz.MathQuiz.HandleAnswer | mathQuiz.js:133-160 | the counters, the active flag and the reply follow `Answer` for whether the selected option is the current question's answer; a new question appears only when the quiz goes on |
| Level.Platform.Box | level.js:38-43 | a platform's box is a proper box whose centre (the midpoint of its corners) is the mesh position and whose extent on each axis is the mesh size |
| Level.FirstHit | level.js:281-288 | finds the first platform, in list order, that the box meets, and reports none only when it meets no platform |
| Level.TreasureBox.constructor | level.js:88-185 | a new box is closed, its key not collected, floating 0.7 above its base, with its key's box fixed above it |
| Level.TreasureBox.Update | level.js:187-196 | `Floated`: a closed box advances its float phase by dt times the float speed and moves to its base height plus the amplitude times the sine of the new phase, x and z unchanged; an open box keeps its position, phase and box; neither the open flag nor the key visibility changes |
| Level.TreasureBox.Open | level.js:198-205 | idempotent: an open box is left unchanged; a closed box opens, hides box and glow and shows its key, which is then not collected |
| Level.TreasureBox.CollectKey | level.js:215-223 | on an open box the key is then collected; a closed box is left unchanged |
| Level.MovingObstacle.constructor | level.js:227-272 | starts moving right, 0.4 above its base, with its patrol origin at the base x |
| Level.MovingObstacle.Update | level.js:274-289 | `Patrolled`: moves by speed times direction times dt; turns if it left its range; on the first platform it then overlaps it turns once more and moves a double step away; the direction stays 1 or -1 |
| Level.VerticalShooter.constructor | level.js:298-357 | interval in 1.2..2.7, initial timer below the interval, speed in 5..7, ceiling 4..6 above the base; no projectile in flight and an empty box |
| Level.VerticalShooter.Update | level.js:359-383 | `Cycled`: fires only with the slot free and the timer run out, which resets the timer to the interval and the projectile to the base; a projectile in flight rises by speed times dt and is freed above the ceiling; at most one is in flight and its box is empty exactly while it is hidden |
| Level.GroundSections | level.js:397-531 | six ground sections, 18 long, one every 21 units, at the stepped heights |
| Level.TreasureBoxSpots | level.js:703-729 | with all six sections, each of the five placements hits an existing section and a box is placed at its midpoint; with none, no box is placed |
| Level.TreasureBoxCount | level.js:703-729 | the level holds five treasure boxes, as many as keys are needed to finish it |
| Kinematics.PlayerBox | player.js:134-150 | the player's box is its width by its height around its position, 0.2 deep, and well formed for non-negative sizes |
| Kinematics.ResolveNoContact | player.js:289-290 | a platform the player does not touch changes nothing |
| Kinematics.ResolveLanding | player.js:299-308 | a top landing rests the player flush on the platform's top, stops the fall, sets the ground flag and refills three charges; on a ground-level platform the respawn anchor becomes the new position |
| Kinematics.ResolveBump | player.js:309-314 | a bottom bump while rising stops the rise flush below the platform; while falling it changes nothing |
| Kinematics.ResolveSide | player.js:315-334 | a side contact keeps the height, the depth and the vertical speed; a player moving right, left of the platform's centre, whose box straddles the platform's left edge is placed at that edge minus half its width minus 0.05 with horizontal speed 0, and the mirror case on the right edge; any other side contact changes nothing; a pushed player no longer touches the platform |
| Kinematics.ResolveCharges | player.js:299-308 | only a top landing touches the charges, the ground flag and the respawn anchor; the anchor moves only on a ground-level landing |
| Kinematics.JumpsStayInRange | player.js:289-336 | the platform pass keeps the jump charges within 0..3 |
| Kinematics.JumpsRefillOnlyOnLanding | player.js:299-304 | after the pass the charges are unchanged, or refilled to 3 by some top landing |
| Kinematics.AnchorMovesOnlyOnGroundLanding | player.js:306-308 | after the pass the respawn anchor is unchanged, or some top landing on a ground-level platform moved it |
| Kinematics.LandingLeavesBoxesTouching | player.js:299-304 | after a landing the player's box still touches the platform |
| Kinematics.Steer | player.js:256-277 | speed +5 whenever right is held, -5 with only left, else 0; gravity adds to vy; a jump fires only on a released-to-pressed edge with a charge left, with impulse 10 at three charges and 8 otherwise, and gives a vy of at least the impulse and at least the old vy plus it, using one charge; charges stay within 0..3 |
| Kinematics.StepKeepsJumpsInRange | player.js:256-336 | a whole movement step keeps the charges within 0..3 |
| Kinematics.HeldJumpUsesNoCharge | player.js:268-277 | with the jump key already held, a step uses no charge; the charges only stay or refill |
| Projectiles.Launched | player.js:181-197 | a fireball flies right unless the player moves left, starts one player width ahead of the player's centre on that side, at its height and depth |
| Projectiles.Advanced | player.js:61-64 | a fireball moves along x only, by its speed times dt |
| Projectiles.LastHit | player.js:211-222 | the reverse obstacle loop stops at the last obstacle hit, and finds none only when none is hit |
| Projectiles.FirstClosedHit | player.js:225-235 | the box loop stops at the first closed box hit, and finds none only when every box hit is already open |
| Projectiles.StepAsWritten | player.js:206-241 | one outer iteration as written keeps the projectiles before `i` and the box count |
| Projectiles.RunAsWritten | player.js:206-242 | the pass as written keeps the box count |
| Projectiles.StepCorrected | player.js:206-241 | one iteration with the projectile removed at most once keeps the box count, at least `i` projectiles, and the projectiles before `i` unchanged |
| Projectiles.StepCorrectedEffect | player.js:206-241 | projectile `i` is replaced by its moved self, or removed exactly when it hit an obstacle, hit a closed box or is more than 20 from the player; an obstacle hit removes exactly that obstacle and opens nothing; a box only opens if it was closed and hit |
| Projectiles.RunCorrected | player.js:206-242 | the reverse loop over every projectile, each removed at most once, iteration by iteration from the last; it keeps the box count, and its effect is stated by the lemmas below |
| Projectiles.RunCorrectedAccounting | player.js:206-242 | each obstacle destroyed and each box opened costs one removed projectile |
| Projectiles.StepCorrectedShrinks | player.js:206-241 | one iteration only removes obstacles and only opens boxes |
| Projectiles.RunCorrectedOnlyOpens | player.js:206-242 | the whole pass only opens boxes and only removes obstacles |
| Projectiles.RunCorrectedSettles | player.js:206-242 | after the iterations, every remaining projectile is within 20 of the player and touches no remaining obstacle and no closed box |
| Projectiles.PassSettlesAll | player.js:206-242 | after the whole pass every remaining projectile is settled in that sense |
| Projectiles.LastObstacleHit | player.js:211-222 | the reverse loop finds the obstacle `LastHit` specifies |
| Projectiles.FirstClosedBoxHit | player.js:225-235 | the forward loop finds the box `FirstClosedHit` specifies |
| Projectiles.PassStep | player.js:206-241 | one iteration computes `StepCorrected`, and splices the obstacle objects in step with their boxes |
| Projectiles.RunPass | player.js:206-242 | the reverse loop computes the whole corrected pass; the obstacle objects left are those whose boxes are left, in their original order, so none is listed twice |
| Projectiles.PassLeavesIff | player.js:206-242 | `PassLeaves` holds exactly when the corrected pass over every projectile leaves the given fireballs and open flags, and the given obstacles are the survivors, picked in order at the positions of the surviving boxes |
| Projectiles.DoubleSpliceLosesNeighbour | player.js:216-240 | two projectiles, the first hitting an obstacle and a closed box: as written both are removed, the second never having touched anything; corrected, the second survives |
| Players.OpenFlags | player.js:227 | the list of which boxes are open, in order |
| Players.BoxExtents | level.js:207-209 | the list of the boxes' bounding boxes, in order |
| Players.ObstacleBoxes | level.js:291-294 | the list of the obstacles' bounding boxes, in order |
| Players.OpenMarked | player.js:226-228 | opens exactly the flagged boxes and leaves every box where it is; a box that opens shows its key, and a box that stays open or stays closed is untouched, so a collected key stays collected |
| Players.Player.constructor | player.js:76-128 | a new player is at the spawn point, at rest, airborne with three charges, alive, visible, not invincible, with no fireballs and no cooldown, sized by the texture's aspect ratio |
| Players.Player.Reset | main.js:315 | the player goes back to the constructor's state |
| Players.Player.ResetMotion | player.js:76-128 | position, velocity, ground flag, anchor and charges go back to the spawn state |
| Players.Player.ResetStatus | player.js:76-128 | fireballs, cooldown, death, invincibility and blinking go back to the spawn state |
| Players.Player.Die | player.js:157-163 | a dead or invincible player is unchanged; otherwise it dies, hidden, with a one-second timer |
| Players.Player.UpdateDeathTimer | player.js:165-179 | a living player is unchanged; a dead one counts down and, once the timer runs out, reappears at the respawn anchor at rest, airborne, visible and invincible for 5 seconds |
| Players.Player.Shoot | player.js:181-197 | with the cooldown run out, exactly one fireball is appended and the cooldown becomes 0.5; otherwise nothing changes |
| Players.Player.ResolvePlatform | player.js:290-335 | one platform contact moves the player as `Resolve` says, keeping the invariant |
| Players.Player.ResolvePlatforms | player.js:289-336 | the platform pass moves the player as `ResolveAll` says, platform by platform in list order |
| Players.Player.TickInvincibility | player.js:342-355 | the invincibility timer counts down and the flag clears once it runs out, after which the player is visible; the sprite toggles every 0.15 s while invincible |
| Players.Player.SteerAndJump | player.js:256-277 | velocity and charges follow `Steer`, and the jump edge flag ends equal to the jump key |
| Players.Player.Move | player.js:283-284 | the position advances by velocity times dt |
| Players.Player.Physics | player.js:256-336 | the movement state follows `Step`: steer, move, resolve platforms |
| Players.Player.Update | player.js:245-356 | a dead player is unchanged; otherwise a fireball is appended exactly when the player asks for one and the cooldown has run out (`Armed`), which sets the cooldown to 0.5, the movement follows `Step`, and the invincibility countdown runs, leaving the player visible once it ends |
| Players.Player.UpdateProjectiles | player.js:199-243 | the cooldown ticks only while positive; the fireballs, the open flags and the obstacles left (in their order) are what the corrected pass gives (`PassLeaves`); no box moves; a box that opens shows its key and every other box is untouched |
| Game.ResetPlayerIdempotent | main.js:169-187 | while respawning, further hits cost nothing: `resetPlayer` twice is `resetPlayer` once |
| Game.LivesStayInRange | main.js:169-187 | lives stay within 1..3 and a hit keeps them, takes one, or (losing the last) restores three |
| Game.HurtTwice | main.js:169-187 | two runs of at most one hit each, within one respawn, are together at most one hit |
| Game.LivesRunOutAsWritten | main.js:313-315 | as written, losing the last life restarts nothing and the next hit takes lives below zero; with the intended restart, score and keys clear and three lives return |
| Game.Uncollected | main.js:226-240 | the coins left after the pass are exactly the untouched ones, in their order |
| Game.CollectCoins | main.js:226-240 | the touched coins are removed and the rest keep their order; the score rises by exactly 10 per coin removed |
| Game.RemoveAt | main.js:238-240 | splicing ascending indices from the last to the first removes exactly those elements and keeps the rest in order |
| Game.GameSession.constructor | main.js:13-28 | the session starts with a fresh player and an inactive quiz, the first level, no score or keys, three lives, not respawning and an empty accumulator |
| Game.GameSession.ResetLevel | main.js:313-351 | the player returns to its starting state, lives become 3, score and keys 0, and the new level's elements replace the old ones |
| Game.GameSession.Install | main.js:344-350 | the session's element lists become the new level's |
| Game.GameSession.ResetPlayer | main.js:169-187 | the counters follow `resetPlayer`: a life is lost at most once per respawn, and losing the last restarts the level; otherwise the player dies unless already dead or invincible, and the level is untouched |
| Game.GameSession.FixedSteps | main.js:207-211 | runs one physics step per whole fixed step in the accumulator and leaves it in `[0, 1/60)`; with no whole step the player, the boxes and the obstacle list are unchanged; the list only loses members |
| Game.GameSession.PhysicsStep | main.js:208-209 | a dead player does not move and a live one moves as `Step` says; then the fireballs, the open flags and the obstacles left are what the corrected pass gives over the fireballs the player update leaves (one more when it fires), measured from the player's new x; no box moves |
| Game.GameSession.StepPlayer | main.js:208 | a dead player is unchanged; a live one moves as `Step` says and its invincibility runs down; a fireball is appended exactly when `Armed`, which sets the cooldown to 0.5; the death state, the obstacles' boxes and the boxes' open flags and extents are unchanged |
| Game.GameSession.StepProjectiles | main.js:209 | the fireballs, the open flags and the session's obstacle list are what the corrected pass gives over the player's fireballs; the player does not move, the cooldown ticks while positive and no box moves |
| Game.GameSession.FloatBoxes | main.js:221-223 | every box floats as `TreasureBox.Update` says: a closed one moves to its base height plus the sine offset, an open one stays; none opens or closes, and no key appears or disappears |
| Game.GameSession.LavaPass | main.js:243-248 | a vulnerable player touching any lava block goes through `resetPlayer` once: it dies, or on the last life the level restarts; an invincible or untouched player, the counters and the level are unchanged |
| Game.GameSession.ObstaclePass | main.js:251-256 | every obstacle of the list the pass began with moves once as `MovingObstacle.Update` says; the counters follow `resetPlayer` exactly when the player was vulnerable and its box met some obstacle's new box, and are unchanged otherwise; on such a hit the level restarts when the last life goes, and otherwise the player is dead and the level kept; without one the player and the level are unchanged |
| Game.GameSession.ObstacleTurn | main.js:252-255 | one turn of the obstacle pass: obstacle `i` moves and its meeting with the player's starting box is recorded; the obstacles already moved keep their state, the ones still to come keep theirs, and the counters, the player and the level are where the earlier turns left them |
| Game.GameSession.PassObstacle | main.js:252-255 | the obstacle moves as `MovingObstacle.Update` says; then a vulnerable player touching its new box goes through `resetPlayer`: the counters follow it, and the level restarts with the player at its start when the last life goes, while otherwise the player is dead and the level kept; without a hit the player, the counters and the level are unchanged |
| Game.GameSession.ShooterPass | main.js:259-264 | every shooter of the list the pass began with updates once as `VerticalShooter.Update` says; the counters follow `resetPlayer` exactly when the player was vulnerable and its box met some shooter's visible projectile after the update, and are unchanged otherwise; on such a hit the level restarts when the last life goes, and otherwise the player is dead and the level kept; without one the player and the level are unchanged |
| Game.GameSession.ShooterTurn | main.js:260-263 | one turn of the shooter pass: shooter `i` updates and whether its visible projectile meets the player's starting box is recorded; the other shooters keep their state, and the counters, the player and the level are where the earlier turns left them |
| Game.GameSession.PassShooter | main.js:260-263 | the shooter updates as `VerticalShooter.Update` says; then a vulnerable player touching its visible projectile goes through `resetPlayer`: the counters follow it, and the level restarts with the player at its start when the last life goes, while otherwise the player is dead and the level kept; without a hit the player, the counters and the level are unchanged |
| Game.GameSession.KeyPass | main.js:267-279 | the quiz starts only when the player touches the key of an open box whose key is still there; its callback is the last such box in the list; otherwise the quiz is untouched |
| Game.GameSession.UpdateGame | main.js:189-311 | while the quiz is open nothing changes: not the session, the player, the quiz, or any obstacle, shooter or box; otherwise the accumulator ends in `[0, 1/60)`, the invariants hold, and lives keep their value, lose one, or return to three |
| Game.GameSession.StartFrame | main.js:196-223 | the number of physics steps is the whole number of fixed steps in the accumulated time (none when it is below one step), the accumulator is left below one step, and the respawn flag clears exactly when the player is alive again |
| Game.GameSession.Tick | main.js:196-204 | the accumulator grows by the frame time; the respawn flag stays set only while the player is still dead after the death timer ran |
| Game.GameSession.CoinPass | main.js:226-240 | the touched coins leave the list and each is worth 10 points |
| Game.GameSession.Hazards | main.js:243-264 | lava, obstacles and shooters together cost at most one life per frame, and nothing while the player is invincible |
| Game.GameSession.EndFrame | main.js:267-310 | after the key pass, a player at the arch with five keys restarts the level: three lives, no score or keys, the new level's elements, the player at its start and no longer at the arch; otherwise only the fall-off check acts: below -10 and vulnerable, the counters follow `resetPlayer`, and the level restarts with the player at its start when the last life goes, while otherwise the player is dead and the level kept; else the counters, the level and the player are unchanged |
| Game.GameSession.AnswerQuiz | main.js:271-276 | a quiz answer follows `Answer`; when the quiz finishes (even after two wrong answers) the box's key is collected and the key count rises by one; otherwise no key changes hands |

## Left out

- Rendering, the camera, the background, lighting, materials and scenery: they do not affect game state.
- Sound (`audio.js`) and the heads-up display (`ui.js`): they only show state.
- `alert`, `console.log`, `requestAnimationFrame` and `THREE.Clock`: the frame time `dt` is a parameter.
- IEEE floating point: positions, speeds and timers are exact reals, so rounding in the accumulator and the timers is not modelled.
- `Math.random`: shooter intervals, timers, speeds and heights, the float phase of the boxes and the quiz draws are parameters. The shuffle of the quiz options is left out, so `options` is in draw order.
- `Math.sin`: the boxes float on a `sin` parameter with no properties assumed.
- Keyboard events are passed as a key name and a pressed flag; the DOM listeners are left out.
- The quiz dialog (buttons, colours, status text) and its one-second `setTimeout` delays: a finished quiz closes and calls back at once.
- `generateQuestion`'s retry loop, which ends only with probability one: the random draws are a given sequence with at least three distinct usable values.
- `createLevelElements`: its concrete coordinates are content, so the level is a parameter of the session. Only the ground sections and the box placements are modelled. The level passed in is assumed to keep what the builder guarantees: every object is created with `new`, so none is listed twice, and every obstacle turns on the level's own platform list (level.js:272, 581-588), which holds all the platforms by the time the game runs. The level a restart installs is whatever the caller passes, in whatever state its objects are in: nothing requires it to be freshly built (boxes closed, keys not collected, obstacles at their origin, as `createLevelElements` builds them), and a caller that passes the same level on every frame re-installs objects that play has already changed.
- Coins spin and lava never moves: coins and lava blocks are their fixed boxes.
- The texture callback that sizes the player: the aspect ratio is a parameter of the constructor.
- Players.Player.UpdateProjectiles: a box hit by a fireball is opened when the pass ends rather than at the hit. The pass carries the open flags in `Pass.boxOpen`, so a box opened by one fireball is skipped by the next as in the code, and no box moves during the pass, so the result is the same.
- Players.Player.UpdateProjectiles: the obstacle list is returned and assigned back, where the code splices the shared array in place.
- Game.GameSession.UpdateGame: the frame-level contract bounds the lives and the accumulator; what each pass does is stated on `StartFrame`, `FixedSteps`, `PhysicsStep`, `FloatBoxes`, `CoinPass`, `LavaPass`, `ObstaclePass`, `ShooterPass` and `EndFrame` and is not repeated for the whole frame.
- Game.GameSession.Hazards: states only what the three hazard passes cost together in lives; what each pass does to the player, the level and its objects is stated on `LavaPass`, `ObstaclePass` and `ShooterPass`.
- Game.GameSession.PhysicsStep: the invincibility countdown and the cooldown set by a shot are stated on `StepPlayer`, and which boxes show their key on `Players.Player.UpdateProjectiles`; they are not repeated for the whole step.
- Game.GameSession.StepProjectiles: which boxes show their key after the pass is stated on `Players.Player.UpdateProjectiles` and `Players.OpenMarked`, not repeated here.
- Game.GameSession.FixedSteps: what each step does is stated on `PhysicsStep`; over several steps only the obstacle list losing members, and the case of no step, are stated.
- Quiz.CompletesAtMostOnce: holds for the modelled quiz, which closes at once. In the code the answer buttons stay clickable during the one-second delay, so a second click on a finishing answer queues a second `closeDialog` and `onComplete`; the key count then rises by two, and a count of 6 never equals the 5 that level completion checks for.

## Findings

| source | as written | input that shows it | evidently intended | confidence | as-written member | corrected member |
|---|---|---|---|---|---|---|
| player.js:216-240 | after an obstacle hit splices projectile `i`, the box check and the distance check still run for the same `i`, and each can splice index `i` again, removing the next projectile in the list | two projectiles, the first overlapping an obstacle and a closed box, the second far from both: both vanish | a projectile is removed at most once; after the obstacle hit the iteration ends | not executed | Projectiles.DoubleSpliceLosesNeighbour | Projectiles.PassSettlesAll |
| main.js:315 | `resetLevel` begins with `player.reset()`, which `Player` does not define, so the call throws before lives, score, keys or the level are reset | a hit with one life left: lives drop to 0 and nothing restarts; the next hit after the respawn flag clears takes lives to -1 | the player returns to its starting state, lives become 3, score and keys 0, and the level is rebuilt | not executed | Game.LivesRunOutAsWritten | Game.GameSession.ResetLevel |

=== FILE: basics.dfy ===
/** Small helpers shared by every module: an optional value, the absolute
    value of a real, and JavaScript's `Array.prototype.splice(i, 1)`. */
module Basics {

  datatype Option<+T> = None | Some(value: T)

  function Abs(r: real): (a: real)
    ensures a >= 0.0 && (a == r || a == -r)
  {
    if r < 0.0 then -r else r
  }

  function Max(a: real, b: real): (m: real)
    ensures m >= a && m >= b && (m == a || m == b)
  {
    if a >= b then a else b
  }

  /** `s.splice(i, 1)` for a non-negative index: removes the element at `i`,
      and removes nothing when `i` is past the end. */
  function Splice<T>(s: seq<T>, i: nat): (r: seq<T>)
    ensures i < |s| ==> |r| == |s| - 1
    ensures i < |s| ==> forall k :: 0 <= k < i ==> r[k] == s[k]
    ensures i < |s| ==> forall k :: i <= k < |r| ==> r[k] == s[k + 1]
    ensures i < |s| ==> multiset(r) + multiset{s[i]} == multiset(s)
    ensures i >= |s| ==> r == s
  {
    if i < |s| then
      assert s == s[..i] + [s[i]] + s[i + 1..];
      s[..i] + s[i + 1..]
    else s
  }

  /** No object or value occurs twice. */
  predicate Distinct<T(==)>(s: seq<T>) {
    forall i, j :: 0 <= i < j < |s| ==> s[i] != s[j]
  }

  /** The element at `i` cut out of the sequence. */
  lemma SpliceIsSlices<T>(s: seq<T>, i: nat)
    requires i < |s|
    ensures Splice(s, i) == s[..i] + s[i + 1..]
  {
  }

  lemma SpliceKeepsPrefix<T>(s: seq<T>, i: nat)
    ensures |Splice(s, i)| >= i || |s| < i
    ensures i <= |s| ==> Splice(s, i)[..i] == s[..i]
  {
  }
}

=== FILE: game.dfy ===
/** main.js: the game session (the level's elements, score, keys and lives),
    one frame of `updateGame`, `resetPlayer`, `resetLevel`, and the quiz
    callback that awards a key. */
module Game {
  import opened Basics
  import opened Geometry
  import opened Input
  import opened Level
  import opened Kinematics
  import opened Players
  import opened Projectiles
  import opened Quiz

  /** Seconds per physics step (`FIXED_TIME_STEP`). */
  const FixedStep: real := 1.0 / 60.0
  /** Points per coin. */
  const CoinValue := 10
  /** Lives at the start and after a level restart. */
  const StartingLives := 3
  /** Keys that unlock the end arch. */
  const KeysNeeded := 5
  /** Below this height a vulnerable player has fallen off the world. */
  const FallLimit := -10.0

  /** The end arch: its centre, width and height. */
  datatype Arch = Arch(center: Vec3, width: real, height: real)

  /** The arch's box: `setFromCenterAndSize` with a depth of one. */
  function ArchBox(a: Arch): Aabb {
    CenteredBox(a.center, Vec3(a.width / 2.0, a.height / 2.0, 0.5))
  }

  /** What `createLevelElements` returns. Coins and lava blocks never move,
      so they are their boxes. */
  datatype LevelElements = LevelElements(
    platforms: seq<Platform>,
    collectibles: seq<Aabb>,
    lavaBlocks: seq<Aabb>,
    obstacles: seq<MovingObstacle>,
    shooters: seq<VerticalShooter>,
    treasureBoxes: seq<TreasureBox>,
    levelEnd: Option<Arch>)

  /** Every object of a level keeps its own invariant, no object is listed
      twice, and every obstacle turns on the level's own platforms. */
  ghost predicate ElementsValid(l: LevelElements)
    reads l.obstacles, l.shooters, l.treasureBoxes
  {
    && ObjectsValid(l.obstacles, l.shooters, l.treasureBoxes)
    && forall o :: o in l.obstacles ==> o.platforms == l.platforms
  }

  ghost predicate ObjectsValid(obstacles: seq<MovingObstacle>, shooters: seq<VerticalShooter>, boxes: seq<TreasureBox>)
    reads obstacles, shooters, boxes
  {
    && Distinct(obstacles) && (forall o :: o in obstacles ==> o.Valid())
    && Distinct(shooters) && (forall s :: s in shooters ==> s.Valid())
    && Distinct(boxes) && AllValid(boxes)
  }

  // ---------------------------------------------------------------------
  // The counters and resetPlayer

  /** The session's counters: score, keys, lives and the respawn flag. */
  datatype Counters = Counters(score: int, keysCollected: int, lives: int, respawning: bool)

  /** Whether `resetPlayer` on these counters loses the last life. */
  predicate RestartsLevel(c: Counters) {
    !c.respawning && c.lives - 1 <= 0
  }

  /** `resetPlayer` on the counters: a hit while not respawning costs a life
      and starts the respawn; losing the last life restarts the level, which
      gives back three lives and clears score and keys. */
  function AfterResetPlayer(c: Counters): Counters {
    if c.respawning then c
    else if RestartsLevel(c) then Counters(0, 0, StartingLives, true)
    else c.(lives := c.lives - 1, respawning := true)
  }

  /** Further hits while respawning cost nothing: one respawn, one life. */
  lemma ResetPlayerIdempotent(c: Counters)
    ensures AfterResetPlayer(AfterResetPlayer(c)) == AfterResetPlayer(c)
    ensures AfterResetPlayer(c).respawning
  {
  }

  /** Lives stay between one and three: the last one is never lost without
      the level restarting. */
  lemma LivesStayInRange(c: Counters)
    requires 1 <= c.lives <= StartingLives
    ensures 1 <= AfterResetPlayer(c).lives <= StartingLives
    ensures AfterResetPlayer(c).lives == c.lives
         || AfterResetPlayer(c).lives == c.lives - 1
         || AfterResetPlayer(c).lives == StartingLives
  {
  }

  /** The counters after zero or more `resetPlayer` calls of one frame. */
  ghost predicate Hurt(before: Counters, after: Counters) {
    after == before || after == AfterResetPlayer(before)
  }

  lemma HurtTwice(a: Counters, b: Counters, c: Counters)
    requires Hurt(a, b) && Hurt(b, c)
    ensures Hurt(a, c)
  {
    ResetPlayerIdempotent(a);
  }

  /** `resetPlayer` as written: `resetLevel` starts with `player.reset()`,
      which `Player` does not define, so the call throws before anything is
      reset, and `player.die()` after it is not reached either. */
  function AfterResetPlayerAsWritten(c: Counters): Counters {
    if c.respawning then c else c.(lives := c.lives - 1, respawning := true)
  }

  /** With the code as written, losing the last life restarts nothing: the
      player is not even killed, so the next frame clears the respawn flag,
      and the next hit takes the lives below zero. */
  lemma LivesRunOutAsWritten()
    ensures var c1 := AfterResetPlayerAsWritten(Counters(40, 2, 1, false));
      var c2 := AfterResetPlayerAsWritten(c1.(respawning := false));
      && c1 == Counters(40, 2, 0, true)
      && c2.lives == -1 && c2.score == 40 && c2.keysCollected == 2
    ensures AfterResetPlayer(Counters(40, 2, 1, false)) == Counters(0, 0, StartingLives, true)
  {
  }

  // ---------------------------------------------------------------------
  // Coins

  /** The elements whose mark is false, in their order. */
  function Unmarked<T>(s: seq<T>, marks: seq<bool>): seq<T>
    requires |marks| == |s|
  {
    if s == [] then [] else (if marks[0] then [] else [s[0]]) + Unmarked(s[1..], marks[1..])
  }

  lemma {:induction false} UnmarkedMembers<T>(s: seq<T>, marks: seq<bool>)
    requires |marks| == |s|
    ensures |Unmarked(s, marks)| <= |s|
    ensures forall x :: x in Unmarked(s, marks) ==> exists k :: 0 <= k < |s| && s[k] == x && !marks[k]
    ensures forall k :: 0 <= k < |s| && !marks[k] ==> s[k] in Unmarked(s, marks)
  {
    if s != [] {
      UnmarkedMembers(s[1..], marks[1..]);
      forall x | x in Unmarked(s, marks)
        ensures exists k :: 0 <= k < |s| && s[k] == x && !marks[k]
      {
        if x !in Unmarked(s[1..], marks[1..]) {
          assert s[0] == x && !marks[0];
        } else {
          var k :| 0 <= k < |s| - 1 && s[1..][k] == x && !marks[1..][k];
          assert s[k + 1] == x && !marks[k + 1];
        }
      }
      forall k | 0 <= k < |s| && !marks[k]
        ensures s[k] in Unmarked(s, marks)
      {
        if k > 0 {
          assert s[1..][k - 1] == s[k] && !marks[1..][k - 1];
        }
      }
    }
  }

  lemma {:induction false} UnmarkedAppend<T>(a: seq<T>, ma: seq<bool>, b: seq<T>, mb: seq<bool>)
    requires |ma| == |a| && |mb| == |b|
    ensures Unmarked(a + b, ma + mb) == Unmarked(a, ma) + Unmarked(b, mb)
  {
    if a == [] {
      assert a + b == b && ma + mb == mb;
    } else {
      assert (a + b)[1..] == a[1..] + b && (ma + mb)[1..] == ma[1..] + mb;
      UnmarkedAppend(a[1..], ma[1..], b, mb);
    }
  }

  lemma {:induction false} UnmarkedNone<T>(s: seq<T>, marks: seq<bool>)
    requires |marks| == |s| && forall k :: 0 <= k < |s| ==> !marks[k]
    ensures Unmarked(s, marks) == s
  {
    if s != [] {
      UnmarkedNone(s[1..], marks[1..]);
    }
  }

  /** From a marked element up to `b`, the filter drops that element and
      keeps the unmarked run after it. */
  lemma UnmarkedFrom<T>(s: seq<T>, marks: seq<bool>, h: nat, b: nat)
    requires |marks| == |s| && h < b <= |s| && marks[h]
    requires forall k :: h < k < b ==> !marks[k]
    ensures Unmarked(s[h..], marks[h..]) == s[h + 1..b] + Unmarked(s[b..], marks[b..])
  {
    assert s[h..][1..] == s[h + 1..] && marks[h..][1..] == marks[h + 1..];
    var mid, midMarks := s[h + 1..b], marks[h + 1..b];
    UnmarkedNone(mid, midMarks);
    assert s[h + 1..] == mid + s[b..] && marks[h + 1..] == midMarks + marks[b..];
    UnmarkedAppend(mid, midMarks, s[b..], marks[b..]);
  }

  /** Removing the marked element at `h`, when the ones between `h` and `b`
      are unmarked and the ones from `b` on are already filtered. */
  lemma SpliceOneMarked<T>(s: seq<T>, marks: seq<bool>, h: nat, b: nat)
    requires |marks| == |s| && h < b <= |s| && marks[h]
    requires forall k :: h < k < b ==> !marks[k]
    ensures Splice(s[..b] + Unmarked(s[b..], marks[b..]), h) == s[..h] + Unmarked(s[h..], marks[h..])
  {
    UnmarkedFrom(s, marks, h, b);
    var cur := s[..b] + Unmarked(s[b..], marks[b..]);
    assert cur[..h] == s[..h];
    assert cur[h + 1..] == s[h + 1..b] + Unmarked(s[b..], marks[b..]);
  }

  /** Which coins a player box touches. */
  function Touched(coins: seq<Aabb>, playerBox: Aabb): (m: seq<bool>)
    ensures |m| == |coins|
    ensures forall k :: 0 <= k < |coins| ==> m[k] == CheckCollision(playerBox, coins[k])
  {
    seq(|coins|, k requires 0 <= k < |coins| => CheckCollision(playerBox, coins[k]))
  }

  /** The coins a player box leaves behind, in their order: every coin it
      does not touch, and no coin it touches. */
  function Uncollected(coins: seq<Aabb>, playerBox: Aabb): (r: seq<Aabb>)
    ensures |r| <= |coins|
    ensures forall c :: c in r ==> c in coins && !CheckCollision(playerBox, c)
    ensures forall k :: 0 <= k < |coins| && !CheckCollision(playerBox, coins[k]) ==> coins[k] in r
  {
    UnmarkedMembers(coins, Touched(coins, playerBox));
    Unmarked(coins, Touched(coins, playerBox))
  }

  /** The collectibles pass: gather the indices of the touched coins, add
      ten points for each, then splice them out from the last to the first. */
  method CollectCoins(coins: seq<Aabb>, playerBox: Aabb, score: int) returns (kept: seq<Aabb>, newScore: int)
    ensures kept == Uncollected(coins, playerBox)
    ensures newScore == score + CoinValue * (|coins| - |kept|)
  {
    ghost var marks := Touched(coins, playerBox);
    var hits: seq<nat> := [];
    newScore := score;
    for i := 0 to |coins|
      invariant forall a, b :: 0 <= a < b < |hits| ==> hits[a] < hits[b]
      invariant forall m :: 0 <= m < |hits| ==> hits[m] < i
      invariant forall k :: 0 <= k < i ==> (marks[k] <==> k in hits)
      invariant newScore == score + CoinValue * |hits|
    {
      if CheckCollision(playerBox, coins[i]) {
        hits := hits + [i];
        newScore := newScore + CoinValue;
      }
    }
    kept := RemoveAt(coins, hits, marks);
  }

  /** The backward splice loop: removing the listed indices, last first,
      leaves exactly the unmarked elements. */
  method RemoveAt<T>(s: seq<T>, hits: seq<nat>, ghost marks: seq<bool>) returns (kept: seq<T>)
    requires |marks| == |s|
    requires forall a, b :: 0 <= a < b < |hits| ==> hits[a] < hits[b]
    requires forall m :: 0 <= m < |hits| ==> hits[m] < |s|
    requires forall k :: 0 <= k < |s| ==> (marks[k] <==> k in hits)
    ensures kept == Unmarked(s, marks) && |kept| == |s| - |hits|
  {
    kept := s;
    var j := |hits|;
    assert s[..|s|] == s && s[|s|..] == [] && marks[|s|..] == [];
    while j > 0
      invariant 0 <= j <= |hits|
      invariant var b := if j == |hits| then |s| else hits[j];
        b <= |s| && kept == s[..b] + Unmarked(s[b..], marks[b..])
      invariant |kept| == |s| - (|hits| - j)
    {
      var b := if j == |hits| then |s| else hits[j];
      j := j - 1;
      var h := hits[j];
      assert h in hits;
      forall k | h < k < b
        ensures !marks[k]
      {
        forall m | 0 <= m < |hits|
          ensures hits[m] != k
        {
          if m > j + 1 {
            assert hits[j + 1] < hits[m];
          }
        }
      }
      SpliceOneMarked(s, marks, h, b);
      kept := Splice(kept, h);
    }
    var b := if |hits| == 0 then |s| else hits[0];
    forall k | 0 <= k < b
      ensures !marks[k]
    {
      forall m | 0 <= m < |hits|
        ensures hits[m] != k
      {
        if m > 0 {
          assert hits[0] < hits[m];
        }
      }
    }
    UnmarkedNone(s[..b], marks[..b]);
    assert s == s[..b] + s[b..] && marks == marks[..b] + marks[b..];
    UnmarkedAppend(s[..b], marks[..b], s[b..], marks[b..]);
  }

  /** Whether a box touches any block of a list. */
  predicate TouchesAny(box: Aabb, blocks: seq<Aabb>) {
    exists k :: 0 <= k < |blocks| && CheckCollision(box, blocks[k])
  }

  /** Whether the box touches the visible projectile of one of the shooters. */
  predicate ShotTouches(box: Aabb, shooters: seq<VerticalShooter>)
    reads shooters
  {
    exists k :: 0 <= k < |shooters| && shooters[k].projectileVisible && CheckCollision(box, shooters[k].boundingBox)
  }

  // ---------------------------------------------------------------------
  // The session

  /** The module state of main.js. `player` and `mathQuiz` are created once;
      the level's elements are replaced on a restart. */
  class GameSession {
    const player: Player
    const quiz: MathQuiz<TreasureBox>
    var platforms: seq<Platform>
    var collectibles: seq<Aabb>
    var lavaBlocks: seq<Aabb>
    var obstacles: seq<MovingObstacle>
    var shooters: seq<VerticalShooter>
    var treasureBoxes: seq<TreasureBox>
    var levelEnd: Option<Arch>
    var score: int
    var keysCollected: int
    var playerLives: int
    var isPlayerRespawning: bool
    var accumulator: real

    function Elements(): LevelElements
      reads this
    {
      LevelElements(platforms, collectibles, lavaBlocks, obstacles, shooters, treasureBoxes, levelEnd)
    }

    function Progress(): Counters
      reads this
    {
      Counters(score, keysCollected, playerLives, isPlayerRespawning)
    }

    /** The player and the level keep their invariants, lives stay within
        one to three, and the accumulated time is never negative. */
    ghost predicate Valid()
      reads this, player, obstacles, shooters, treasureBoxes
    {
      && player.Valid()
      && ObjectsValid(obstacles, shooters, treasureBoxes)
      && 1 <= playerLives <= StartingLives
      && accumulator >= 0.0
    }

    /** The state after `init`: a fresh player and quiz, the first level,
        no score or keys, three lives. */
    constructor (aspect: real, shotHalf: Vec3, level: LevelElements)
      requires aspect > 0.0 && ElementsValid(level)
      ensures Valid() && Elements() == level && player.AtStart() && !quiz.isActive
      ensures Progress() == Counters(0, 0, StartingLives, false) && accumulator == 0.0
    {
      player := new Player(aspect, shotHalf);
      quiz := new MathQuiz();
      platforms, collectibles, lavaBlocks := level.platforms, level.collectibles, level.lavaBlocks;
      obstacles, shooters, treasureBoxes := level.obstacles, level.shooters, level.treasureBoxes;
      levelEnd := level.levelEnd;
      score, keysCollected, playerLives := 0, 0, StartingLives;
      isPlayerRespawning := false;
      accumulator := 0.0;
    }

    /** `resetLevel` as intended: the player back to its starting state,
        three lives, no score or keys, and the new level's elements. */
    method ResetLevel(level: LevelElements)
      requires player.Valid() && accumulator >= 0.0 && ElementsValid(level)
      modifies `platforms, `collectibles, `lavaBlocks, `obstacles, `shooters, `treasureBoxes, `levelEnd,
        `playerLives, `score, `keysCollected, player
      ensures Valid() && ElementsValid(level) && player.AtStart()
      ensures Elements() == level
      ensures Progress() == Counters(0, 0, StartingLives, old(isPlayerRespawning))
    {
      player.Reset();
      playerLives := StartingLives;
      score, keysCollected := 0, 0;
      Install(level);
    }

    /** The new level's elements replace the old ones. */
    method Install(level: LevelElements)
      modifies `platforms, `collectibles, `lavaBlocks, `obstacles, `shooters, `treasureBoxes, `levelEnd
      ensures Elements() == level
    {
      platforms, collectibles, lavaBlocks := level.platforms, level.collectibles, level.lavaBlocks;
      obstacles, shooters, treasureBoxes := level.obstacles, level.shooters, level.treasureBoxes;
      levelEnd := level.levelEnd;
    }

    /** `resetPlayer`: the counters follow `AfterResetPlayer`; losing the
        last life restarts the level, otherwise the player dies, unless it
        is already dead or invincible. */
    method ResetPlayer(level: LevelElements)
      requires Valid() && ElementsValid(level)
      modifies `platforms, `collectibles, `lavaBlocks, `obstacles, `shooters, `treasureBoxes, `levelEnd,
        `playerLives, `score, `keysCollected, `isPlayerRespawning, player
      ensures Valid() && ElementsValid(level)
      ensures Progress() == AfterResetPlayer(old(Progress()))
      ensures RestartsLevel(old(Progress())) ==> Elements() == level && player.AtStart()
      ensures !RestartsLevel(old(Progress())) ==>
        && Elements() == old(Elements())
        && player.Motion() == old(player.Motion()) && player.invincible == old(player.invincible)
      ensures !RestartsLevel(old(Progress())) && (old(player.isDead) || old(player.invincible)) ==> unchanged(player)
      ensures !RestartsLevel(old(Progress())) && !old(player.isDead) && !old(player.invincible) ==>
        player.isDead && player.deathTimer == RespawnCooldown
    {
      if !isPlayerRespawning {
        playerLives := playerLives - 1;
        isPlayerRespawning := true;
        if playerLives <= 0 {
          ResetLevel(level);
          return;
        }
      }
      player.Die();
    }

    /** The fixed-step loop of `updateGame`: one physics step per whole
        step in the accumulator, which is left below one step. */
    method FixedSteps(keys: Intents) returns (steps: nat)
      requires Valid()
      modifies `accumulator, `obstacles, player, treasureBoxes
      ensures Valid()
      ensures accumulator == old(accumulator) - steps as real * FixedStep
      ensures 0.0 <= accumulator < FixedStep
      ensures steps == (old(accumulator) / FixedStep).Floor
      ensures forall o :: o in obstacles ==> o in old(obstacles)
      ensures steps == 0 ==> unchanged(player) && unchanged(treasureBoxes) && obstacles == old(obstacles)
    {
      steps := 0;
      while accumulator >= FixedStep
        invariant Valid()
        invariant accumulator == old(accumulator) - steps as real * FixedStep
        invariant forall o :: o in obstacles ==> o in old(obstacles)
        invariant steps == 0 ==> unchanged(player) && unchanged(treasureBoxes) && obstacles == old(obstacles)
        decreases (accumulator / FixedStep).Floor
      {
        Advance(keys);
        steps := steps + 1;
      }
    }

    /** One iteration of the fixed-step loop: a physics step, and one step
        of time taken from the accumulator. */
    method Advance(keys: Intents)
      requires Valid() && accumulator >= FixedStep
      modifies `accumulator, `obstacles, player, treasureBoxes
      ensures Valid()
      ensures accumulator == old(accumulator) - FixedStep
      ensures forall o :: o in obstacles ==> o in old(obstacles)
    {
      PhysicsStep(keys);
      Spend();
    }

    /** One fixed step of time leaves the accumulator. */
    method Spend()
      requires Valid() && accumulator >= FixedStep
      modifies `accumulator
      ensures Valid() && accumulator == old(accumulator) - FixedStep
    {
      accumulator := accumulator - FixedStep;
    }

    /** One physics step: the player update, then the projectile pass over
        the projectiles it leaves (one more when it fires), measured from
        where the player has moved to. The obstacles a projectile destroys
        leave the list, the boxes a projectile meets open and show their key. */
    method PhysicsStep(keys: Intents)
      requires Valid()
      modifies `obstacles, player, treasureBoxes
      ensures Valid()
      ensures old(player.isDead) ==> player.Motion() == old(player.Motion())
      ensures !old(player.isDead) ==>
        player.Motion() == Step(old(player.Motion()), keys, old(player.wasJumpPressed), FixedStep, platforms, player.width, player.height)
      ensures PassLeaves(old(Pass(player.Loaded(keys), ObstacleBoxes(obstacles), OpenFlags(treasureBoxes))),
                         old(BoxExtents(treasureBoxes)), FixedStep, player.pos.x,
                         player.projectiles, OpenFlags(treasureBoxes), old(obstacles), obstacles)
      ensures BoxExtents(treasureBoxes) == old(BoxExtents(treasureBoxes))
      ensures forall o :: o in obstacles ==> o in old(obstacles)
    {
      StepPlayer(keys);
      StepProjectiles();
    }

    /** `player.update(FIXED_TIME_STEP, keys, platforms)`: a dead player stays
        as it is; a live one takes one `Step` of motion, fires when armed, and
        its invincibility runs down. */
    method StepPlayer(keys: Intents)
      requires Valid()
      modifies player
      ensures Valid()
      ensures old(player.isDead) ==> unchanged(player)
      ensures !old(player.isDead) ==>
        player.Motion() == Step(old(player.Motion()), keys, old(player.wasJumpPressed), FixedStep, platforms, player.width, player.height)
      ensures !old(player.isDead) ==> (player.invincible <==> old(player.invincible) && old(player.invincibleTimer) - FixedStep > 0.0)
      ensures player.projectiles == old(player.Loaded(keys))
      ensures player.shootCooldown == if old(player.Armed(keys)) then ProjectileCooldown else old(player.shootCooldown)
      ensures player.isDead == old(player.isDead) && player.deathTimer == old(player.deathTimer)
      ensures ObstacleBoxes(obstacles) == old(ObstacleBoxes(obstacles))
      ensures OpenFlags(treasureBoxes) == old(OpenFlags(treasureBoxes))
      ensures BoxExtents(treasureBoxes) == old(BoxExtents(treasureBoxes))
    {
      assert forall m :: 0 <= m < |treasureBoxes| ==> treasureBoxes[m] as object != player;
      assert forall m :: 0 <= m < |obstacles| ==> obstacles[m] as object != player;
      player.Update(FixedStep, keys, platforms);
    }

    /** `player.updateProjectiles(FIXED_TIME_STEP, obstacles, treasureBoxes)`:
        the projectiles follow the corrected pass, the obstacles they destroy
        leave the session's list, and the boxes they meet open; the player
        itself does not move. */
    method StepProjectiles()
      requires Valid()
      modifies `obstacles, player, treasureBoxes
      ensures Valid()
      ensures player.Motion() == old(player.Motion()) && player.isDead == old(player.isDead)
      ensures player.shootCooldown ==
        if old(player.shootCooldown) > 0.0 then old(player.shootCooldown) - FixedStep else old(player.shootCooldown)
      ensures PassLeaves(old(Pass(player.projectiles, ObstacleBoxes(obstacles), OpenFlags(treasureBoxes))),
                         old(BoxExtents(treasureBoxes)), FixedStep, player.pos.x,
                         player.projectiles, OpenFlags(treasureBoxes), old(obstacles), obstacles)
      ensures BoxExtents(treasureBoxes) == old(BoxExtents(treasureBoxes))
      ensures forall o :: o in obstacles ==> o in old(obstacles)
    {
      var remaining := Fire();
      TakeSurvivors(remaining);
    }

    /** The session keeps the obstacles the pass leaves standing. */
    method TakeSurvivors(remaining: seq<MovingObstacle>)
      requires player.Valid() && ObjectsValid(remaining, shooters, treasureBoxes)
      requires 1 <= playerLives <= StartingLives && accumulator >= 0.0
      modifies `obstacles
      ensures Valid() && obstacles == remaining
      ensures OpenFlags(treasureBoxes) == old(OpenFlags(treasureBoxes))
      ensures BoxExtents(treasureBoxes) == old(BoxExtents(treasureBoxes))
    {
      obstacles := remaining;
    }

    /** The call itself, before the session takes the surviving obstacles. */
    method Fire() returns (remaining: seq<MovingObstacle>)
      requires player.Valid() && Distinct(treasureBoxes) && AllValid(treasureBoxes)
      modifies player, treasureBoxes
      ensures player.Valid() && AllValid(treasureBoxes)
      ensures player.Motion() == old(player.Motion()) && player.isDead == old(player.isDead)
      ensures player.shootCooldown ==
        if old(player.shootCooldown) > 0.0 then old(player.shootCooldown) - FixedStep else old(player.shootCooldown)
      ensures PassLeaves(old(Pass(player.projectiles, ObstacleBoxes(obstacles), OpenFlags(treasureBoxes))),
                         old(BoxExtents(treasureBoxes)), FixedStep, player.pos.x,
                         player.projectiles, OpenFlags(treasureBoxes), obstacles, remaining)
      ensures BoxExtents(treasureBoxes) == old(BoxExtents(treasureBoxes))
      ensures forall o :: o in remaining ==> o in obstacles
      ensures Distinct(obstacles) ==> Distinct(remaining)
    {
      assert forall m :: 0 <= m < |treasureBoxes| ==> treasureBoxes[m] as object != player;
      remaining := player.UpdateProjectiles(FixedStep, obstacles, treasureBoxes);
    }

    /** The treasure-box pass: every box is updated once, so the closed ones
        float and the open ones stay; none opens or loses its key. */
    method FloatBoxes(dt: real, sin: real -> real)
      requires Valid()
      modifies treasureBoxes
      ensures Valid()
      ensures forall k :: 0 <= k < |treasureBoxes| ==> treasureBoxes[k].Floated(dt, sin)
    {
      for i := 0 to |treasureBoxes|
        invariant Valid()
        invariant forall k :: 0 <= k < i ==> treasureBoxes[k].Floated(dt, sin)
        invariant forall k :: i <= k < |treasureBoxes| ==> unchanged(treasureBoxes[k])
      {
        treasureBoxes[i].Update(dt, sin);
      }
    }

    /** The lava pass: a vulnerable player touching a lava block goes
        through `resetPlayer`; an invincible one is left alone. */
    method LavaPass(level: LevelElements)
      requires Valid() && ElementsValid(level)
      modifies `platforms, `collectibles, `lavaBlocks, `obstacles, `shooters, `treasureBoxes, `levelEnd,
        `playerLives, `score, `keysCollected, `isPlayerRespawning, player
      ensures Valid() && ElementsValid(level)
      ensures Elements() == old(Elements()) || Elements() == level
      ensures Progress() == if !old(player.invincible) && TouchesAny(old(player.BoundingBox()), old(lavaBlocks))
        then AfterResetPlayer(old(Progress())) else old(Progress())
      ensures !(!old(player.invincible) && TouchesAny(old(player.BoundingBox()), old(lavaBlocks))) ==>
        unchanged(player) && Elements() == old(Elements())
      ensures !old(player.invincible) && TouchesAny(old(player.BoundingBox()), old(lavaBlocks)) ==>
        if RestartsLevel(old(Progress())) then Elements() == level
        else player.isDead && Elements() == old(Elements())
    {
      var blocks := lavaBlocks;
      ghost var hit := false;
      for i := 0 to |blocks|
        invariant Valid() && ElementsValid(level)
        invariant Elements() == old(Elements()) || Elements() == level
        invariant hit <==> !old(player.invincible) && TouchesAny(old(player.BoundingBox()), blocks[..i])
        invariant !hit ==> unchanged(player) && Elements() == old(Elements()) && Progress() == old(Progress())
        invariant hit ==> Progress() == AfterResetPlayer(old(Progress()))
        invariant hit && RestartsLevel(old(Progress())) ==> Elements() == level
        invariant hit && !RestartsLevel(old(Progress())) ==> player.isDead && Elements() == old(Elements())
      {
        if CheckCollision(player.BoundingBox(), blocks[i]) && !player.invincible {
          ResetPlayerIdempotent(old(Progress()));
          ResetPlayer(level);
          hit := true;
        }
        assert blocks[..i + 1] == blocks[..i] + [blocks[i]];
      }
      assert blocks[..|blocks|] == blocks;
    }

    /** The obstacle pass over the list as it was when the pass began: every
        obstacle patrols once, and a vulnerable player touching one of them
        where it has moved to goes through `resetPlayer`. */
    method ObstaclePass(dt: real, level: LevelElements)
      requires Valid() && ElementsValid(level)
      modifies `platforms, `collectibles, `lavaBlocks, `obstacles, `shooters, `treasureBoxes, `levelEnd,
        `playerLives, `score, `keysCollected, `isPlayerRespawning, player, obstacles
      ensures Valid() && ElementsValid(level)
      ensures Elements() == old(Elements()) || Elements() == level
      ensures Hurt(old(Progress()), Progress())
      ensures old(player.invincible) ==> unchanged(player) && Elements() == old(Elements()) && Progress() == old(Progress())
      ensures forall k :: 0 <= k < |old(obstacles)| ==> old(obstacles)[k].Patrolled(dt)
      ensures Progress() == if !old(player.invincible) && TouchesAny(old(player.BoundingBox()), ObstacleBoxes(old(obstacles)))
        then AfterResetPlayer(old(Progress())) else old(Progress())
      ensures !(!old(player.invincible) && TouchesAny(old(player.BoundingBox()), ObstacleBoxes(old(obstacles)))) ==>
        unchanged(player) && Elements() == old(Elements())
      ensures !old(player.invincible) && TouchesAny(old(player.BoundingBox()), ObstacleBoxes(old(obstacles))) ==>
        if RestartsLevel(old(Progress())) then Elements() == level
        else player.isDead && Elements() == old(Elements())
    {
      var os := obstacles;
      ghost var from := seq(|os|, k requires 0 <= k < |os| reads os => (os[k].pos, os[k].direction));
      ghost var pb, vulnerable, p0, e0 := player.BoundingBox(), !player.invincible, Progress(), Elements();
      ghost var hit, touched := false, [];
      for i := 0 to |os|
        invariant Valid() && ElementsValid(level)
        invariant ObstacleTurnAt(os, i, dt, level, from, pb, vulnerable, p0, e0, hit, touched)
        invariant !hit ==> unchanged(player)
      {
        hit, touched := ObstacleTurn(os, i, dt, level, from, pb, vulnerable, p0, e0, hit, touched);
      }
      assert forall k :: 0 <= k < |os| ==> ObstacleBoxes(os)[k] == os[k].BoundingBox();
      assert forall k :: 0 <= k < |os| ==> touched[k] == CheckCollision(pb, ObstacleBoxes(os)[k]);
    }

    /** Where the obstacle pass stands after `i` turns, against the state it
        began in: `from` holds each obstacle's position and heading then,
        `pb` the player's box, `vulnerable` whether the player was not
        invincible, `p0` and `e0` the counters and the elements; `touched`
        records which of the moved obstacles met that box, and `hit` whether
        a vulnerable player was met. */
    ghost predicate ObstacleTurnAt(os: seq<MovingObstacle>, i: nat, dt: real, level: LevelElements,
                                   from: seq<(Vec3, int)>, pb: Aabb, vulnerable: bool,
                                   p0: Counters, e0: LevelElements, hit: bool, touched: seq<bool>)
      reads this, player, os
    {
      && i <= |os| == |from| && |touched| == i && Distinct(os)
      && (forall o :: o in os ==> o.Valid())
      && (forall k :: 0 <= k < i ==>
            os[k].PatrolledFrom(from[k].0, from[k].1, dt) && touched[k] == CheckCollision(pb, os[k].BoundingBox()))
      && (forall k :: i <= k < |os| ==> os[k].pos == from[k].0 && os[k].direction == from[k].1)
      && (hit <==> vulnerable && true in touched)
      && (!hit ==> player.invincible == !vulnerable && player.BoundingBox() == pb && Elements() == e0 && Progress() == p0)
      && (hit ==> Progress() == AfterResetPlayer(p0))
      && (hit && RestartsLevel(p0) ==> Elements() == level)
      && (hit && !RestartsLevel(p0) ==> player.isDead && Elements() == e0)
    }

    /** One turn of the obstacle pass: obstacle `i` moves and may meet the
        player, and the others stay where they are. */
    method ObstacleTurn(os: seq<MovingObstacle>, i: nat, dt: real, level: LevelElements,
                        ghost from: seq<(Vec3, int)>, ghost pb: Aabb, ghost vulnerable: bool,
                        ghost p0: Counters, ghost e0: LevelElements, ghost hit: bool, ghost touched: seq<bool>)
      returns (ghost hit': bool, ghost touched': seq<bool>)
      requires Valid() && ElementsValid(level) && i < |os|
      requires ObstacleTurnAt(os, i, dt, level, from, pb, vulnerable, p0, e0, hit, touched)
      modifies `platforms, `collectibles, `lavaBlocks, `obstacles, `shooters, `treasureBoxes, `levelEnd,
        `playerLives, `score, `keysCollected, `isPlayerRespawning, player, os[i]
      ensures Valid() && ElementsValid(level)
      ensures ObstacleTurnAt(os, i + 1, dt, level, from, pb, vulnerable, p0, e0, hit', touched')
      ensures !hit' ==> !hit && unchanged(player)
    {
      ResetPlayerIdempotent(p0);
      PassObstacle(os[i], dt, level);
      touched' := touched + [CheckCollision(pb, os[i].BoundingBox())];
      hit' := hit || (vulnerable && CheckCollision(pb, os[i].BoundingBox()));
    }

    /** One obstacle of the pass: it moves, then a vulnerable player
        touching it goes through `resetPlayer`, dying or restarting the level. */
    method PassObstacle(o: MovingObstacle, dt: real, level: LevelElements)
      requires Valid() && ElementsValid(level) && o.Valid()
      modifies `platforms, `collectibles, `lavaBlocks, `obstacles, `shooters, `treasureBoxes, `levelEnd,
        `playerLives, `score, `keysCollected, `isPlayerRespawning, player, o`pos, o`direction
      ensures Valid() && ElementsValid(level) && o.Valid()
      ensures Elements() == old(Elements()) || Elements() == level
      ensures Hurt(old(Progress()), Progress())
      ensures old(player.invincible) ==> unchanged(player) && Elements() == old(Elements()) && Progress() == old(Progress())
      ensures o.Patrolled(dt)
      ensures !old(player.invincible) && CheckCollision(old(player.BoundingBox()), o.BoundingBox()) ==>
        Progress() == AfterResetPlayer(old(Progress()))
      ensures !(!old(player.invincible) && CheckCollision(old(player.BoundingBox()), o.BoundingBox())) ==>
        unchanged(player) && Elements() == old(Elements()) && Progress() == old(Progress())
      ensures !old(player.invincible) && CheckCollision(old(player.BoundingBox()), o.BoundingBox()) ==>
        if RestartsLevel(old(Progress())) then Elements() == level && player.AtStart()
        else player.isDead && Elements() == old(Elements())
    {
      o.Update(dt);
      if CheckCollision(player.BoundingBox(), o.BoundingBox()) && !player.invincible {
        ResetPlayer(level);
      }
    }

    /** The shooter pass over the list as it was when the pass began: every
        shooter updates once, and a vulnerable player touching a visible
        projectile where it has risen to goes through `resetPlayer`. */
    method ShooterPass(dt: real, level: LevelElements)
      requires Valid() && ElementsValid(level)
      modifies `platforms, `collectibles, `lavaBlocks, `obstacles, `shooters, `treasureBoxes, `levelEnd,
        `playerLives, `score, `keysCollected, `isPlayerRespawning, player, shooters
      ensures Valid() && ElementsValid(level)
      ensures Elements() == old(Elements()) || Elements() == level
      ensures Hurt(old(Progress()), Progress())
      ensures old(player.invincible) ==> unchanged(player) && Elements() == old(Elements()) && Progress() == old(Progress())
      ensures forall k :: 0 <= k < |old(shooters)| ==> old(shooters)[k].Cycled(dt)
      ensures Progress() == if !old(player.invincible) && ShotTouches(old(player.BoundingBox()), old(shooters))
        then AfterResetPlayer(old(Progress())) else old(Progress())
      ensures !(!old(player.invincible) && ShotTouches(old(player.BoundingBox()), old(shooters))) ==>
        unchanged(player) && Elements() == old(Elements())
      ensures !old(player.invincible) && ShotTouches(old(player.BoundingBox()), old(shooters)) ==>
        if RestartsLevel(old(Progress())) then Elements() == level
        else player.isDead && Elements() == old(Elements())
    {
      var ss := shooters;
      ghost var from := seq(|ss|, k requires 0 <= k < |ss| reads ss =>
        (ss[k].shootTimer, ss[k].projectileActive, ss[k].projectileY));
      ghost var pb, vulnerable, p0, e0 := player.BoundingBox(), !player.invincible, Progress(), Elements();
      ghost var hit, touched := false, [];
      for i := 0 to |ss|
        invariant Valid() && ElementsValid(level)
        invariant ShooterTurnAt(ss, i, dt, level, from, pb, vulnerable, p0, e0, hit, touched)
        invariant !hit ==> unchanged(player)
      {
        hit, touched := ShooterTurn(ss, i, dt, level, from, pb, vulnerable, p0, e0, hit, touched);
      }
      assert ShotTouches(pb, ss) <==> true in touched;
    }

    /** Where the shooter pass stands after `i` turns, against the state it
        began in: `from` holds each shooter's timer, whether its shot was in
        flight and at what height, when the pass began; the other parameters
        are those of `ObstacleTurnAt`, with `touched` recording which updated
        shooters' visible projectiles met the player's box. */
    ghost predicate ShooterTurnAt(ss: seq<VerticalShooter>, i: nat, dt: real, level: LevelElements,
                                  from: seq<(real, bool, real)>, pb: Aabb, vulnerable: bool,
                                  p0: Counters, e0: LevelElements, hit: bool, touched: seq<bool>)
      reads this, player, ss
    {
      && i <= |ss| == |from| && |touched| == i && Distinct(ss)
      && (forall s :: s in ss ==> s.Valid())
      && (forall k :: 0 <= k < i ==>
            && ss[k].CycledFrom(from[k].0, from[k].1, from[k].2, dt)
            && touched[k] == (ss[k].projectileVisible && CheckCollision(pb, ss[k].boundingBox)))
      && (forall k :: i <= k < |ss| ==>
            ss[k].shootTimer == from[k].0 && ss[k].projectileActive == from[k].1 && ss[k].projectileY == from[k].2)
      && (hit <==> vulnerable && true in touched)
      && (!hit ==> player.invincible == !vulnerable && player.BoundingBox() == pb && Elements() == e0 && Progress() == p0)
      && (hit ==> Progress() == AfterResetPlayer(p0))
      && (hit && RestartsLevel(p0) ==> Elements() == level)
      && (hit && !RestartsLevel(p0) ==> player.isDead && Elements() == e0)
    }

    /** One turn of the shooter pass: shooter `i` updates and its projectile
        may meet the player, and the others stay as they are. */
    method ShooterTurn(ss: seq<VerticalShooter>, i: nat, dt: real, level: LevelElements,
                       ghost from: seq<(real, bool, real)>, ghost pb: Aabb, ghost vulnerable: bool,
                       ghost p0: Counters, ghost e0: LevelElements, ghost hit: bool, ghost touched: seq<bool>)
      returns (ghost hit': bool, ghost touched': seq<bool>)
      requires Valid() && ElementsValid(level) && i < |ss|
      requires ShooterTurnAt(ss, i, dt, level, from, pb, vulnerable, p0, e0, hit, touched)
      modifies `platforms, `collectibles, `lavaBlocks, `obstacles, `shooters, `treasureBoxes, `levelEnd,
        `playerLives, `score, `keysCollected, `isPlayerRespawning, player, ss[i]
      ensures Valid() && ElementsValid(level)
      ensures ShooterTurnAt(ss, i + 1, dt, level, from, pb, vulnerable, p0, e0, hit', touched')
      ensures !hit' ==> !hit && unchanged(player)
    {
      ResetPlayerIdempotent(p0);
      PassShooter(ss[i], dt, level);
      ghost var c := ss[i].projectileVisible && CheckCollision(pb, ss[i].boundingBox);
      touched' := touched + [c];
      hit' := hit || (vulnerable && c);
    }

    /** One shooter of the pass: it updates, then a vulnerable player
        touching its visible projectile goes through `resetPlayer`, dying or
        restarting the level. */
    method PassShooter(s: VerticalShooter, dt: real, level: LevelElements)
      requires Valid() && ElementsValid(level) && s.Valid()
      modifies `platforms, `collectibles, `lavaBlocks, `obstacles, `shooters, `treasureBoxes, `levelEnd,
        `playerLives, `score, `keysCollected, `isPlayerRespawning, player, s
      ensures Valid() && ElementsValid(level) && s.Valid()
      ensures Elements() == old(Elements()) || Elements() == level
      ensures Hurt(old(Progress()), Progress())
      ensures old(player.invincible) ==> unchanged(player) && Elements() == old(Elements()) && Progress() == old(Progress())
      ensures s.Cycled(dt)
      ensures !old(player.invincible) && s.projectileVisible && CheckCollision(old(player.BoundingBox()), s.boundingBox) ==>
        Progress() == AfterResetPlayer(old(Progress()))
      ensures !(!old(player.invincible) && s.projectileVisible && CheckCollision(old(player.BoundingBox()), s.boundingBox)) ==>
        unchanged(player) && Elements() == old(Elements()) && Progress() == old(Progress())
      ensures !old(player.invincible) && s.projectileVisible && CheckCollision(old(player.BoundingBox()), s.boundingBox) ==>
        if RestartsLevel(old(Progress())) then Elements() == level && player.AtStart()
        else player.isDead && Elements() == old(Elements())
    {
      s.Update(dt);
      if s.projectileVisible && CheckCollision(player.BoundingBox(), s.boundingBox) && !player.invincible {
        ResetPlayer(level);
      }
    }

    /** Whether the player can pick up this box's key: the box is open, the
        key still there, and the player touches it. */
    predicate CanTakeKey(box: TreasureBox)
      reads this, player, box
    {
      box.isOpen && !box.IsKeyCollected() && CheckCollision(player.BoundingBox(), box.keyBoundingBox)
    }

    /** The key pass: touching an available key opens the quiz, whose
        callback is that box (the last such box when several are touched). */
    method KeyPass(question: Question)
      modifies quiz
      ensures (exists k :: 0 <= k < |treasureBoxes| && CanTakeKey(treasureBoxes[k])) ==>
        && quiz.State() == Started && quiz.current == Some(question)
        && quiz.onComplete.Some? && quiz.onComplete.value in treasureBoxes && CanTakeKey(quiz.onComplete.value)
      ensures (exists k :: 0 <= k < |treasureBoxes| && CanTakeKey(treasureBoxes[k])) ==>
        exists j :: 0 <= j < |treasureBoxes| && quiz.onComplete == Some(treasureBoxes[j]) && CanTakeKey(treasureBoxes[j])
          && forall m :: j < m < |treasureBoxes| ==> !CanTakeKey(treasureBoxes[m])
      ensures !(exists k :: 0 <= k < |treasureBoxes| && CanTakeKey(treasureBoxes[k])) ==> unchanged(quiz)
    {
      ghost var last := -1;
      for i := 0 to |treasureBoxes|
        invariant -1 <= last < i
        invariant last < 0 <==> !(exists k :: 0 <= k < i && CanTakeKey(treasureBoxes[k]))
        invariant last < 0 ==> unchanged(quiz)
        invariant last >= 0 ==>
          && quiz.State() == Started && quiz.current == Some(question)
          && quiz.onComplete == Some(treasureBoxes[last]) && CanTakeKey(treasureBoxes[last])
          && forall m :: last < m < i ==> !CanTakeKey(treasureBoxes[m])
      {
        var box := treasureBoxes[i];
        if box.isOpen && !box.IsKeyCollected() && CheckCollision(player.BoundingBox(), box.keyBoundingBox) {
          quiz.Start(box, question);
          last := i;
        }
      }
    }

    /** The level-completion test: all five keys and the player at the arch. */
    predicate AtArch()
      reads this, player
    {
      levelEnd.Some? && keysCollected == KeysNeeded && CheckCollision(player.BoundingBox(), ArchBox(levelEnd.value))
    }

    /** One frame of `updateGame(dt)`. `keys` is the input state, `sin` the
        sine the boxes float on, `question` the question a quiz would open
        with, and `level` what `createLevelElements` builds on a restart.
        Nothing happens while the quiz is open; otherwise the accumulator is
        left below one step, and the frame costs at most one life. */
    method UpdateGame(dt: real, keys: Intents, sin: real -> real, question: Question, level: LevelElements)
      requires Valid() && ElementsValid(level) && dt >= 0.0
      modifies this, player, quiz, obstacles, shooters, treasureBoxes, level.obstacles, level.shooters
      ensures Valid()
      ensures old(quiz.isActive) ==>
        && unchanged(this) && unchanged(player) && unchanged(quiz)
        && unchanged(obstacles) && unchanged(shooters) && unchanged(treasureBoxes)
      ensures !old(quiz.isActive) ==> 0.0 <= accumulator < FixedStep
      ensures playerLives == old(playerLives) || playerLives == old(playerLives) - 1 || playerLives == StartingLives
    {
      if quiz.isActive {
        return;
      }
      var steps := StartFrame(dt, keys, sin);
      ghost var left := accumulator;
      CoinPass();
      ghost var p0 := Progress();
      assert forall k :: 0 <= k < |obstacles| ==> obstacles[k] in old(obstacles);
      Hazards(dt, level);
      ghost var p1 := Progress();
      EndFrame(question, level);
      assert accumulator == left;
      if Hurt(p1, Progress()) {
        HurtTwice(p0, p1, Progress());
      }
    }

    /** The start of a frame: the time is accumulated, the death timer runs,
        the respawn flag clears once the player is back, and the fixed steps
        run (one per whole step of accumulated time); then the boxes float. */
    method StartFrame(dt: real, keys: Intents, sin: real -> real) returns (steps: nat)
      requires Valid() && dt >= 0.0
      modifies `accumulator, `isPlayerRespawning, `obstacles, player, treasureBoxes
      ensures Valid()
      ensures 0.0 <= accumulator < FixedStep
      ensures steps == ((old(accumulator) + dt) / FixedStep).Floor
      ensures old(accumulator) + dt < FixedStep ==> steps == 0
      ensures Progress() == old(Progress()).(respawning :=
        old(isPlayerRespawning) && old(player.isDead) && old(player.deathTimer) - dt > 0.0)
      ensures forall o :: o in obstacles ==> o in old(obstacles)
    {
      Tick(dt);
      steps := FixedSteps(keys);
      FloatBoxes(dt, sin);
    }

    /** The frame's time goes into the accumulator and the death timer, and
        the respawn flag clears once the player is alive again. */
    method Tick(dt: real)
      requires Valid() && dt >= 0.0
      modifies `accumulator, `isPlayerRespawning, player
      ensures Valid()
      ensures accumulator == old(accumulator) + dt
      ensures Progress() == old(Progress()).(respawning :=
        old(isPlayerRespawning) && old(player.isDead) && old(player.deathTimer) - dt > 0.0)
    {
      accumulator := accumulator + dt;
      player.UpdateDeathTimer(dt);
      if isPlayerRespawning && !player.isDead {
        isPlayerRespawning := false;
      }
    }

    /** The collectibles pass on the session: the touched coins go, and
        each is worth ten points. */
    method CoinPass()
      requires Valid()
      modifies `collectibles, `score
      ensures Valid()
      ensures collectibles == Uncollected(old(collectibles), player.BoundingBox())
      ensures score == old(score) + CoinValue * (|old(collectibles)| - |collectibles|)
    {
      collectibles, score := CollectCoins(collectibles, player.BoundingBox(), score);
    }

    /** The hazard passes: lava, obstacles, shooters. They cost at most one
        life between them, and nothing at all while the player is invincible. */
    method Hazards(dt: real, level: LevelElements)
      requires Valid() && ElementsValid(level)
      modifies `platforms, `collectibles, `lavaBlocks, `obstacles, `shooters, `treasureBoxes, `levelEnd,
        `playerLives, `score, `keysCollected, `isPlayerRespawning, player, obstacles, shooters,
        level.obstacles, level.shooters
      ensures Valid() && ElementsValid(level)
      ensures Hurt(old(Progress()), Progress())
      ensures old(player.invincible) ==> Progress() == old(Progress()) && Elements() == old(Elements())
    {
      ghost var p0 := Progress();
      LavaPass(level);
      ghost var p1 := Progress();
      ObstaclePass(dt, level);
      ghost var p2 := Progress();
      HurtTwice(p0, p1, p2);
      ShooterPass(dt, level);
      HurtTwice(p0, p2, Progress());
    }

    /** The end of a frame: the key pass, then either the level restart at
        the arch or the fall-off check. */
    method EndFrame(question: Question, level: LevelElements)
      requires Valid() && ElementsValid(level)
      modifies `platforms, `collectibles, `lavaBlocks, `obstacles, `shooters, `treasureBoxes, `levelEnd,
        `playerLives, `score, `keysCollected, `isPlayerRespawning, player, quiz
      ensures Valid()
      ensures Hurt(old(Progress()), Progress()) || Progress() == Counters(0, 0, StartingLives, old(isPlayerRespawning))
      ensures old(AtArch()) ==>
        && Progress() == Counters(0, 0, StartingLives, old(isPlayerRespawning))
        && Elements() == level && player.AtStart() && !AtArch()
      ensures !old(AtArch()) ==> Hurt(old(Progress()), Progress())
      ensures !old(AtArch()) && (old(player.invincible) || old(player.pos.y) >= FallLimit) ==>
        Progress() == old(Progress()) && Elements() == old(Elements()) && unchanged(player)
      ensures !old(AtArch()) && !old(player.invincible) && old(player.pos.y) < FallLimit ==>
        Progress() == AfterResetPlayer(old(Progress()))
      ensures !old(AtArch()) && !old(player.invincible) && old(player.pos.y) < FallLimit ==>
        if RestartsLevel(old(Progress())) then Elements() == level && player.AtStart()
        else player.isDead && Elements() == old(Elements())
    {
      KeyPass(question);
      if AtArch() {
        ResetLevel(level);
        return;
      }
      if player.pos.y < FallLimit && !player.invincible {
        ResetPlayer(level);
      }
    }

    /** A quiz answer: on `Finished` the callback collects the box's key and
        counts it; otherwise no key changes hands. */
    method AnswerQuiz(selected: int, next: Question) returns (reply: Reply)
      requires Valid()
      requires quiz.isActive && quiz.current.Some? && quiz.onComplete.Some? && quiz.onComplete.value.Valid()
      modifies quiz, `keysCollected, quiz.onComplete.value
      ensures Valid()
      ensures (quiz.State(), reply) == Answer(old(quiz.State()), selected == old(quiz.current).value.answer)
      ensures quiz.onComplete == old(quiz.onComplete)
      ensures reply == Finished ==>
        keysCollected == old(keysCollected) + 1
        && (old(quiz.onComplete.value.isOpen) ==> quiz.onComplete.value.IsKeyCollected())
      ensures reply != Finished ==> keysCollected == old(keysCollected) && unchanged(quiz.onComplete.value)
    {
      var box := quiz.onComplete.value;
      reply := quiz.HandleAnswer(selected, next);
      if reply == Finished {
        box.CollectKey();
        keysCollected := keysCollected + 1;
      }
    }
  }
}

=== FILE: geometry.dfy ===
/** Axis-aligned boxes with the semantics of three.js `Box3`, as used by
    level.js `checkCollision` and the `getBoundingBox` methods. */
module Geometry {

  datatype Vec3 = Vec3(x: real, y: real, z: real)

  /** A `Box3`: either the empty box (`new Box3()` or `makeEmpty()`, whose
      min is +Infinity and max is -Infinity) or the box with corners lo, hi. */
  datatype Aabb = Empty | Box(lo: Vec3, hi: Vec3)

  /** `Box3.setFromCenterAndSize` with the size halved, which is also the box
      `setFromObject` gives for a sprite or mesh of that extent. */
  function CenteredBox(c: Vec3, half: Vec3): (b: Aabb)
    ensures b.Box?
    ensures b.lo.x + b.hi.x == 2.0 * c.x && b.lo.y + b.hi.y == 2.0 * c.y && b.lo.z + b.hi.z == 2.0 * c.z
    ensures b.hi.x - b.lo.x == 2.0 * half.x && b.hi.y - b.lo.y == 2.0 * half.y && b.hi.z - b.lo.z == 2.0 * half.z
  {
    Box(Vec3(c.x - half.x, c.y - half.y, c.z - half.z), Vec3(c.x + half.x, c.y + half.y, c.z + half.z))
  }

  /** min <= max on every axis. */
  predicate WellFormed(b: Aabb) {
    b.Box? && b.lo.x <= b.hi.x && b.lo.y <= b.hi.y && b.lo.z <= b.hi.z
  }

  /** Closed intervals overlap on one axis. */
  predicate Overlap(lo1: real, hi1: real, lo2: real, hi2: real) {
    hi2 >= lo1 && lo2 <= hi1
  }

  /** `checkCollision(a, b)`, i.e. `a.intersectsBox(b)`: the closed
      intervals overlap on all three axes; an empty box meets nothing. */
  predicate CheckCollision(a: Aabb, b: Aabb) {
    a.Box? && b.Box?
    && Overlap(a.lo.x, a.hi.x, b.lo.x, b.hi.x)
    && Overlap(a.lo.y, a.hi.y, b.lo.y, b.hi.y)
    && Overlap(a.lo.z, a.hi.z, b.lo.z, b.hi.z)
  }

  lemma CenteredBoxWellFormed(c: Vec3, half: Vec3)
    requires half.x >= 0.0 && half.y >= 0.0 && half.z >= 0.0
    ensures WellFormed(CenteredBox(c, half))
  {
  }

  lemma CheckCollisionSymmetric(a: Aabb, b: Aabb)
    ensures CheckCollision(a, b) <==> CheckCollision(b, a)
  {
  }

  /** Boxes that only share a face still collide. */
  lemma TouchingBoxesCollide(a: Aabb, b: Aabb)
    requires WellFormed(a) && WellFormed(b)
    requires a.hi.x == b.lo.x
    requires Overlap(a.lo.y, a.hi.y, b.lo.y, b.hi.y) && Overlap(a.lo.z, a.hi.z, b.lo.z, b.hi.z)
    ensures CheckCollision(a, b)
  {
  }

  lemma EmptyCollidesWithNothing(b: Aabb)
    ensures !CheckCollision(Empty, b) && !CheckCollision(b, Empty)
  {
  }

  lemma WellFormedCollidesWithItself(b: Aabb)
    requires WellFormed(b)
    ensures CheckCollision(b, b)
  {
  }

  /** Boxes separated by a gap on the x axis do not collide. */
  lemma GapOnXSeparates(a: Aabb, b: Aabb)
    requires a.Box? && b.Box? && a.hi.x < b.lo.x
    ensures !CheckCollision(a, b)
  {
  }
}

=== FILE: input.dfy ===
/** input.js: keyboard events become four boolean intents. */
module Input {
  import opened Basics

  datatype Intents = Intents(left: bool, right: bool, jump: bool, shoot: bool)

  datatype Intent = Left | Right | Jump | Shoot

  const NoIntents := Intents(false, false, false, false)

  /** The `switch (event.key)` of `handleKeyEvent`: which intent a key drives. */
  function IntentOf(key: string): (r: Option<Intent>)
    ensures r == Some(Left) <==> key in {"ArrowLeft", "a", "A"}
    ensures r == Some(Right) <==> key in {"ArrowRight", "d", "D"}
    ensures r == Some(Jump) <==> key in {" ", "ArrowUp", "w", "W"}
    ensures r == Some(Shoot) <==> key in {"e", "E"}
  {
    if key == "ArrowLeft" || key == "a" || key == "A" then Some(Left)
    else if key == "ArrowRight" || key == "d" || key == "D" then Some(Right)
    else if key == " " || key == "ArrowUp" || key == "w" || key == "W" then Some(Jump)
    else if key == "e" || key == "E" then Some(Shoot)
    else None
  }

  function Get(k: Intents, i: Intent): bool {
    match i
    case Left => k.left
    case Right => k.right
    case Jump => k.jump
    case Shoot => k.shoot
  }

  /** The intent map after one key event. */
  function AfterKey(k: Intents, key: string, isPressed: bool): (r: Intents)
    ensures IntentOf(key).Some? ==> Get(r, IntentOf(key).value) == isPressed
    ensures forall i :: IntentOf(key) != Some(i) ==> Get(r, i) == Get(k, i)
  {
    match IntentOf(key)
    case None => k
    case Some(Left) => k.(left := isPressed)
    case Some(Right) => k.(right := isPressed)
    case Some(Jump) => k.(jump := isPressed)
    case Some(Shoot) => k.(shoot := isPressed)
  }

  /** Delivering the same event twice leaves the map as delivering it once. */
  lemma AfterKeyIdempotent(k: Intents, key: string, isPressed: bool)
    ensures AfterKey(AfterKey(k, key, isPressed), key, isPressed) == AfterKey(k, key, isPressed)
  {
  }

  /** Events for different intents commute. */
  lemma AfterKeyCommutes(k: Intents, key1: string, p1: bool, key2: string, p2: bool)
    requires IntentOf(key1) != IntentOf(key2) || IntentOf(key1).None?
    ensures AfterKey(AfterKey(k, key1, p1), key2, p2) == AfterKey(AfterKey(k, key2, p2), key1, p1)
  {
  }

  /** `InputManager`: owns the intent map and updates it field by field. */
  class InputManager {
    var keys: Intents

    constructor ()
      ensures keys == NoIntents
    {
      keys := Intents(false, false, false, false);
    }

    method HandleKeyEvent(key: string, isPressed: bool)
      modifies this
      ensures keys == AfterKey(old(keys), key, isPressed)
      ensures IntentOf(key).Some? ==> Get(keys, IntentOf(key).value) == isPressed
      ensures forall i :: IntentOf(key) != Some(i) ==> Get(keys, i) == Get(old(keys), i)
    {
      if key == "ArrowLeft" || key == "a" || key == "A" {
        keys := keys.(left := isPressed);
      } else if key == "ArrowRight" || key == "d" || key == "D" {
        keys := keys.(right := isPressed);
      } else if key == " " || key == "ArrowUp" || key == "w" || key == "W" {
        keys := keys.(jump := isPressed);
      } else if key == "e" || key == "E" {
        keys := keys.(shoot := isPressed);
      }
    }
  }
}

=== FILE: kinematics.dfy ===
/** The platform-collision pass of player.js `Player.update`, on values:
    how one platform contact is classified and resolved, and the pass over
    the whole platform list. */
module Kinematics {
  import opened Basics
  import opened Geometry
  import opened Level
  import opened Input

  /** Half the depth of the player's collision slab. */
  const DepthHalf := 0.1
  /** Gap left between the player and a platform side after a side snap. */
  const SideTolerance := 0.05
  /** The top face of ground-level platforms, and how close counts. */
  const GroundTop := -0.5
  const GroundTolerance := 0.1
  const MaxJumps := 3
  const PlayerSpeed := 5.0
  const Gravity := -30.0
  /** The first jump's impulse; later jumps get 80% of it. */
  const JumpForce := 10.0

  /** The part of the player the platform pass reads and writes. */
  datatype Body = Body(pos: Vec3, vx: real, vy: real, onGround: bool, jumps: int, lastGround: Vec3)

  /** `updateBoundingBox`: width by height around the position, 0.2 deep. */
  function PlayerBox(pos: Vec3, w: real, h: real): (b: Aabb)
    ensures b == CenteredBox(pos, Vec3(w / 2.0, h / 2.0, DepthHalf))
    ensures w >= 0.0 && h >= 0.0 ==> WellFormed(b)
  {
    CenteredBox(pos, Vec3(w / 2.0, h / 2.0, DepthHalf))
  }

  /** A top landing: touching the platform, not rising, straddling its top face. */
  predicate Lands(b: Body, p: Platform, w: real, h: real) {
    var pb := PlayerBox(b.pos, w, h);
    CheckCollision(pb, p.Box()) && b.vy <= 0.0 && pb.lo.y < p.Box().hi.y && pb.hi.y > p.Box().hi.y
  }

  /** A bottom bump: touching, not a landing, straddling the bottom face. */
  predicate Bumps(b: Body, p: Platform, w: real, h: real) {
    var pb := PlayerBox(b.pos, w, h);
    CheckCollision(pb, p.Box()) && !Lands(b, p, w, h) && pb.hi.y > p.Box().lo.y && pb.lo.y < p.Box().lo.y
  }

  /** Any other contact is a side contact. */
  predicate SideContact(b: Body, p: Platform, w: real, h: real) {
    CheckCollision(PlayerBox(b.pos, w, h), p.Box()) && !Lands(b, p, w, h) && !Bumps(b, p, w, h)
  }

  /** A platform whose top is at ground level, where the respawn anchor is kept. */
  predicate GroundLevel(p: Platform) {
    Abs(p.Box().hi.y - GroundTop) < GroundTolerance
  }

  /** The `forEach` callback for one platform. */
  function Resolve(b: Body, p: Platform, w: real, h: real): (r: Body)
  {
    var pb := PlayerBox(b.pos, w, h);
    var pbox := p.Box();
    if !CheckCollision(pb, pbox) then b
    else if b.vy <= 0.0 && pb.lo.y < pbox.hi.y && pb.hi.y > pbox.hi.y then
      var pos := b.pos.(y := pbox.hi.y + h / 2.0);
      b.(pos := pos, vy := 0.0, onGround := true, jumps := MaxJumps,
         lastGround := if Abs(pbox.hi.y - GroundTop) < GroundTolerance then pos else b.lastGround)
    else if pb.hi.y > pbox.lo.y && pb.lo.y < pbox.lo.y then
      if b.vy > 0.0 then b.(pos := b.pos.(y := pbox.lo.y - h / 2.0), vy := 0.0) else b
    else
      var towards := (b.vx > 0.0 && b.pos.x < p.center.x) || (b.vx < 0.0 && b.pos.x > p.center.x);
      if towards && b.vx > 0.0 && pb.hi.x > pbox.lo.x && pb.lo.x < pbox.lo.x then
        b.(pos := b.pos.(x := pbox.lo.x - w / 2.0 - SideTolerance), vx := 0.0)
      else if towards && b.vx < 0.0 && pb.lo.x < pbox.hi.x && pb.hi.x > pbox.hi.x then
        b.(pos := b.pos.(x := pbox.hi.x + w / 2.0 + SideTolerance), vx := 0.0)
      else b
  }

  /** Without contact the platform changes nothing. */
  lemma ResolveNoContact(b: Body, p: Platform, w: real, h: real)
    requires !CheckCollision(PlayerBox(b.pos, w, h), p.Box())
    ensures Resolve(b, p, w, h) == b
  {
  }

  /** A landing rests the player flush on the platform's top, stops the fall
      and refills the charges; on a ground-level platform the respawn anchor
      moves to the new position. */
  lemma ResolveLanding(b: Body, p: Platform, w: real, h: real)
    requires Lands(b, p, w, h)
    ensures var r := Resolve(b, p, w, h);
      && PlayerBox(r.pos, w, h).lo.y == p.Box().hi.y && r.pos.x == b.pos.x && r.pos.z == b.pos.z
      && r.vy == 0.0 && r.vx == b.vx && r.onGround && r.jumps == MaxJumps
      && (GroundLevel(p) ==> r.lastGround == r.pos)
  {
  }

  /** A bump while rising stops the rise flush below the platform; a bump
      while falling changes nothing. */
  lemma ResolveBump(b: Body, p: Platform, w: real, h: real)
    requires Bumps(b, p, w, h)
    ensures var r := Resolve(b, p, w, h);
      if b.vy > 0.0 then
        PlayerBox(r.pos, w, h).hi.y == p.Box().lo.y && r.vy == 0.0 && r.pos.x == b.pos.x && r.vx == b.vx
      else r == b
  {
  }

  /** A side contact keeps the height and the vertical speed. A player moving
      towards the platform's centre across its near edge is pushed out to
      0.05 beyond that edge, which stops the horizontal motion and leaves the
      boxes apart; any other side contact changes nothing. */
  lemma ResolveSide(b: Body, p: Platform, w: real, h: real)
    requires SideContact(b, p, w, h)
    ensures var r := Resolve(b, p, w, h);
      && r.vy == b.vy && r.pos.y == b.pos.y && r.pos.z == b.pos.z && (r.vx == b.vx || r.vx == 0.0)
      && (r.pos.x != b.pos.x ==>
            && r.vx == 0.0
            && (if b.vx > 0.0 then b.pos.x < p.center.x else b.vx < 0.0 && b.pos.x > p.center.x)
            && !CheckCollision(PlayerBox(r.pos, w, h), p.Box()))
    ensures var r := Resolve(b, p, w, h); var pb := PlayerBox(b.pos, w, h);
      b.vx > 0.0 && b.pos.x < p.center.x && pb.lo.x < p.Box().lo.x < pb.hi.x ==>
        r.pos.x == p.Box().lo.x - w / 2.0 - SideTolerance && r.vx == 0.0
    ensures var r := Resolve(b, p, w, h); var pb := PlayerBox(b.pos, w, h);
      b.vx < 0.0 && b.pos.x > p.center.x && pb.lo.x < p.Box().hi.x < pb.hi.x ==>
        r.pos.x == p.Box().hi.x + w / 2.0 + SideTolerance && r.vx == 0.0
    ensures var pb := PlayerBox(b.pos, w, h);
      !(b.vx > 0.0 && b.pos.x < p.center.x && pb.lo.x < p.Box().lo.x < pb.hi.x) &&
      !(b.vx < 0.0 && b.pos.x > p.center.x && pb.lo.x < p.Box().hi.x < pb.hi.x) ==>
        Resolve(b, p, w, h) == b
  {
  }

  /** Only a landing touches the charges, the ground flag and the respawn
      anchor, and the anchor moves only on a ground-level landing. */
  lemma ResolveCharges(b: Body, p: Platform, w: real, h: real)
    ensures var r := Resolve(b, p, w, h);
      !Lands(b, p, w, h) ==> r.jumps == b.jumps && r.onGround == b.onGround && r.lastGround == b.lastGround
    ensures var r := Resolve(b, p, w, h);
      Lands(b, p, w, h) ==> r.jumps == MaxJumps
    ensures var r := Resolve(b, p, w, h);
      r.lastGround != b.lastGround ==> Lands(b, p, w, h) && GroundLevel(p) && r.lastGround == r.pos
  {
  }


  /** The whole `platforms.forEach` pass, platform by platform in list order. */
  function ResolveAll(b: Body, ps: seq<Platform>, w: real, h: real): Body
    decreases |ps|
  {
    if ps == [] then b else Resolve(ResolveAll(b, ps[..|ps| - 1], w, h), ps[|ps| - 1], w, h)
  }

  /** The jump charges stay within 0..3 through the pass. */
  lemma {:induction false} JumpsStayInRange(b: Body, ps: seq<Platform>, w: real, h: real)
    requires 0 <= b.jumps <= MaxJumps
    ensures 0 <= ResolveAll(b, ps, w, h).jumps <= MaxJumps
    decreases |ps|
  {
    if ps != [] {
      JumpsStayInRange(b, ps[..|ps| - 1], w, h);
      ResolveCharges(ResolveAll(b, ps[..|ps| - 1], w, h), ps[|ps| - 1], w, h);
    }
  }

  /** The charges change only by a refill to 3, and only through a top landing. */
  lemma {:induction false} JumpsRefillOnlyOnLanding(b: Body, ps: seq<Platform>, w: real, h: real)
    ensures var r := ResolveAll(b, ps, w, h);
      r.jumps == b.jumps
      || (r.jumps == MaxJumps && exists k :: 0 <= k < |ps| && Lands(ResolveAll(b, ps[..k], w, h), ps[k], w, h))
    decreases |ps|
  {
    if ps != [] {
      var n := |ps| - 1;
      var init := ps[..n];
      JumpsRefillOnlyOnLanding(b, init, w, h);
      var mid := ResolveAll(b, init, w, h);
      ResolveCharges(mid, ps[n], w, h);
      if Lands(mid, ps[n], w, h) {
        assert ps[..n] == init;
        assert Lands(ResolveAll(b, ps[..n], w, h), ps[n], w, h);
      } else if mid.jumps != b.jumps {
        var k :| 0 <= k < |init| && Lands(ResolveAll(b, init[..k], w, h), init[k], w, h);
        assert init[..k] == ps[..k] && init[k] == ps[k];
        assert Lands(ResolveAll(b, ps[..k], w, h), ps[k], w, h);
      }
    }
  }

  /** The respawn anchor moves only on a top landing onto a ground-level platform. */
  lemma {:induction false} AnchorMovesOnlyOnGroundLanding(b: Body, ps: seq<Platform>, w: real, h: real)
    ensures var r := ResolveAll(b, ps, w, h);
      r.lastGround == b.lastGround
      || exists k :: 0 <= k < |ps| && Lands(ResolveAll(b, ps[..k], w, h), ps[k], w, h) && GroundLevel(ps[k])
    decreases |ps|
  {
    if ps != [] {
      var n := |ps| - 1;
      var init := ps[..n];
      AnchorMovesOnlyOnGroundLanding(b, init, w, h);
      var mid := ResolveAll(b, init, w, h);
      ResolveCharges(mid, ps[n], w, h);
      if Lands(mid, ps[n], w, h) && GroundLevel(ps[n]) {
        assert ps[..n] == init;
      } else if mid.lastGround != b.lastGround {
        var k :| 0 <= k < |init| && Lands(ResolveAll(b, init[..k], w, h), init[k], w, h) && GroundLevel(init[k]);
        assert init[..k] == ps[..k];
      }
    }
  }

  /** After a top landing the player rests flush on the platform; the boxes
      still touch, so the next pass sees the contact again. */
  lemma LandingLeavesBoxesTouching(b: Body, p: Platform, w: real, h: real)
    requires w >= 0.0 && h >= 0.0 && p.size.x >= 0.0 && p.size.y >= 0.0 && p.size.z >= 0.0
    requires Lands(b, p, w, h)
    ensures CheckCollision(PlayerBox(Resolve(b, p, w, h).pos, w, h), p.Box())
  {
    ResolveLanding(b, p, w, h);
  }
  /** A jump fires on a released-to-pressed edge of the jump intent while a
      charge is left. */
  predicate JumpFires(b: Body, keys: Intents, wasJumpPressed: bool) {
    keys.jump && !wasJumpPressed && b.jumps > 0
  }

  /** The velocity part of `update` before the move: horizontal speed from the
      intents (right wins over left), gravity, and the edge-triggered jump. */
  function Steer(b: Body, keys: Intents, wasJumpPressed: bool, dt: real): (r: Body)
    ensures r.pos == b.pos && r.lastGround == b.lastGround
    ensures keys.right ==> r.vx == PlayerSpeed
    ensures keys.left && !keys.right ==> r.vx == -PlayerSpeed
    ensures !keys.left && !keys.right ==> r.vx == 0.0
    ensures JumpFires(b, keys, wasJumpPressed) ==>
      var impulse := if b.jumps == MaxJumps then JumpForce else 0.8 * JumpForce;
      && r.vy >= impulse && r.vy >= b.vy + Gravity * dt + impulse
      && (r.vy == impulse || r.vy == b.vy + Gravity * dt + impulse)
      && r.jumps == b.jumps - 1 && !r.onGround
    ensures !JumpFires(b, keys, wasJumpPressed) ==>
      r.vy == b.vy + Gravity * dt && r.jumps == b.jumps && r.onGround == b.onGround
    ensures 0 <= b.jumps <= MaxJumps ==> 0 <= r.jumps <= MaxJumps
  {
    var vx := if keys.right then PlayerSpeed else if keys.left then -PlayerSpeed else 0.0;
    var vy := b.vy + Gravity * dt;
    if JumpFires(b, keys, wasJumpPressed) then
      var impulse := if b.jumps == MaxJumps then JumpForce else JumpForce * 0.8;
      b.(vx := vx, vy := Max(impulse, vy + impulse), jumps := b.jumps - 1, onGround := false)
    else
      b.(vx := vx, vy := vy)
  }

  /** Applying the velocity for one step. */
  function Integrate(b: Body, dt: real): Body {
    b.(pos := b.pos.(x := b.pos.x + b.vx * dt, y := b.pos.y + b.vy * dt))
  }

  /** One physics step of a living player: steer, move, resolve platforms. */
  function Step(b: Body, keys: Intents, wasJumpPressed: bool, dt: real, ps: seq<Platform>, w: real, h: real): Body {
    ResolveAll(Integrate(Steer(b, keys, wasJumpPressed, dt), dt), ps, w, h)
  }

  /** A whole step keeps the jump charges within 0..3. */
  lemma StepKeepsJumpsInRange(b: Body, keys: Intents, wasJumpPressed: bool, dt: real, ps: seq<Platform>, w: real, h: real)
    requires 0 <= b.jumps <= MaxJumps
    ensures 0 <= Step(b, keys, wasJumpPressed, dt, ps, w, h).jumps <= MaxJumps
  {
    JumpsStayInRange(Integrate(Steer(b, keys, wasJumpPressed, dt), dt), ps, w, h);
  }

  /** Holding the jump key does not jump again: with the key already down,
      a step uses no charge unless it lands, which refills to 3. */
  lemma {:induction false} HeldJumpUsesNoCharge(b: Body, keys: Intents, dt: real, ps: seq<Platform>, w: real, h: real)
    ensures var r := Step(b, keys, true, dt, ps, w, h); r.jumps == b.jumps || r.jumps == MaxJumps
  {
    JumpsRefillOnlyOnLanding(Integrate(Steer(b, keys, true, dt), dt), ps, w, h);
  }
}

=== FILE: level.dfy ===
/** level.js: the level's actors (treasure boxes, patrolling obstacles,
    vertical shooters), platforms, and the counts fixed by the layout. */
module Level {
  import opened Basics
  import opened Geometry

  /** A platform (`LevelElement` over a box mesh): its box is recomputed
      from the mesh, centred on the mesh position. */
  datatype Platform = Platform(center: Vec3, size: Vec3) {
    function Box(): (b: Aabb)
      ensures b.Box?
      ensures b.lo.x + b.hi.x == 2.0 * center.x && b.lo.y + b.hi.y == 2.0 * center.y && b.lo.z + b.hi.z == 2.0 * center.z
      ensures b.hi.x - b.lo.x == size.x && b.hi.y - b.lo.y == size.y && b.hi.z - b.lo.z == size.z
    {
      CenteredBox(center, Vec3(size.x / 2.0, size.y / 2.0, size.z / 2.0))
    }
  }

  /** The first platform, in list order, whose box meets `b`. */
  function FirstHit(b: Aabb, ps: seq<Platform>): (r: Option<nat>)
    ensures r.Some? ==> r.value < |ps| && CheckCollision(b, ps[r.value].Box())
    ensures r.Some? ==> forall k :: 0 <= k < r.value ==> !CheckCollision(b, ps[k].Box())
    ensures r.None? ==> forall k :: 0 <= k < |ps| ==> !CheckCollision(b, ps[k].Box())
  {
    if ps == [] then None
    else if CheckCollision(b, ps[0].Box()) then Some(0)
    else match FirstHit(b, ps[1..])
      case None => None
      case Some(k) => Some(k + 1)
  }

  // ---------------------------------------------------------------------
  // TreasureBox

  const FloatAmplitude := 0.2
  const FloatSpeed := 2.0

  /** A treasure box: a floating box sprite with a glow, and a key sprite that
      appears once the box is opened. */
  class TreasureBox {
    var boxPos: Vec3
    const half: Vec3
    const initialY: real
    var floatTime: real
    var isOpen: bool
    var boxVisible: bool
    var glowVisible: bool
    var keyVisible: bool
    var boundingBox: Aabb
    const keyBoundingBox: Aabb

    /** The box is shown (with its glow) exactly while closed, the key only
        once open, and the cached box follows the sprite. */
    ghost predicate Valid()
      reads this
    {
      && boundingBox == CenteredBox(boxPos, half)
      && (isOpen <==> !boxVisible)
      && (isOpen <==> !glowVisible)
      && (!isOpen ==> !keyVisible)
    }

    /** `isKeyCollected`. */
    predicate IsKeyCollected()
      reads this
    {
      isOpen && !keyVisible
    }

    /** `new TreasureBox(scene, x, y, z)`; `half` is the box sprite's half
        extent and `phase` the random float phase. The key's box is taken
        once, from the unit-scale key sprite. */
    constructor (x: real, y: real, z: real, half: Vec3, phase: real)
      ensures Valid() && !isOpen && !IsKeyCollected()
      ensures boxPos == Vec3(x, y + 0.7, z) && this.half == half
      ensures initialY == y && floatTime == phase
      ensures keyBoundingBox == CenteredBox(Vec3(x, y + 1.1, z), Vec3(0.5, 0.5, 0.0))
    {
      boxPos := Vec3(x, y + 0.7, z);
      this.half := half;
      boundingBox := CenteredBox(Vec3(x, y + 0.7, z), half);
      boxVisible, glowVisible, keyVisible := true, true, false;
      keyBoundingBox := CenteredBox(Vec3(x, y + 1.1, z), Vec3(0.5, 0.5, 0.0));
      isOpen := false;
      initialY := y;
      floatTime := phase;
    }

    /** What `update(deltaTime)` does to the box: a closed box advances its
        float time and rides on `sin`; an open box stays where it is; neither
        opens, closes or changes its key. */
    twostate predicate Floated(dt: real, sin: real -> real)
      reads this
    {
      && isOpen == old(isOpen) && keyVisible == old(keyVisible)
      && (old(isOpen) ==> boxPos == old(boxPos) && floatTime == old(floatTime) && boundingBox == old(boundingBox))
      && (!old(isOpen) ==> floatTime == old(floatTime) + dt * FloatSpeed)
      && (!old(isOpen) ==> boxPos == old(boxPos).(y := initialY + sin(floatTime) * FloatAmplitude))
    }

    /** `update(deltaTime)`: a closed box floats on `sin`; an open box stays. */
    method Update(dt: real, sin: real -> real)
      requires Valid()
      modifies this
      ensures Valid()
      ensures Floated(dt, sin)
    {
      if !isOpen {
        floatTime := floatTime + dt * FloatSpeed;
        var newY := initialY + sin(floatTime) * FloatAmplitude;
        boxPos := boxPos.(y := newY);
        boundingBox := CenteredBox(boxPos, half);
      }
    }

    /** `open()`: idempotent; on a closed box hides box and glow and shows the key. */
    method Open()
      requires Valid()
      modifies this
      ensures isOpen && (!old(isOpen) ==> !IsKeyCollected())
      ensures old(isOpen) ==> unchanged(this)
      ensures !old(isOpen) ==> isOpen && !boxVisible && !glowVisible && keyVisible
      ensures boxPos == old(boxPos) && boundingBox == old(boundingBox) && floatTime == old(floatTime)
      ensures Valid()
    {
      if !isOpen {
        isOpen := true;
        boxVisible := false;
        glowVisible := false;
        keyVisible := true;
      }
    }

    /** `collectKey()`: hides the key of an open box; nothing on a closed one. */
    method CollectKey()
      requires Valid()
      modifies this
      ensures Valid()
      ensures old(isOpen) ==> IsKeyCollected()
      ensures !old(isOpen) ==> unchanged(this)
      ensures isOpen == old(isOpen) && boxPos == old(boxPos) && boundingBox == old(boundingBox)
      ensures floatTime == old(floatTime)
    {
      if isOpen {
        keyVisible := false;
      }
    }
  }

  // ---------------------------------------------------------------------
  // MovingObstacle

  /** A patrolling obstacle. `platforms` is the level's platform list. */
  class MovingObstacle {
    var pos: Vec3
    const half: Vec3
    const originX: real
    const range: real
    const speed: real
    var direction: int
    const platforms: seq<Platform>

    ghost predicate Valid()
      reads this
    {
      direction == 1 || direction == -1
    }

    /** `getBoundingBox()`, recomputed from the sprite. */
    function BoundingBox(): Aabb
      reads this
    {
      CenteredBox(pos, half)
    }

    /** `new MovingObstacle(scene, x, y, z, range, speed, platforms)`. */
    constructor (x: real, y: real, z: real, range: real, speed: real, platforms: seq<Platform>, half: Vec3)
      ensures Valid() && direction == 1
      ensures pos == Vec3(x, y + 0.4, z) && originX == x
      ensures this.range == range && this.speed == speed && this.platforms == platforms && this.half == half
    {
      pos := Vec3(x, y + 0.4, z);
      this.half := half;
      this.range, this.speed := range, speed;
      originX := x;
      direction := 1;
      this.platforms := platforms;
    }

    /** `x` moved for `dt` seconds at the patrol speed in direction `d`. */
    function Nudge(x: real, d: int, dt: real): real {
      x + speed * d as real * dt
    }

    /** What `update(deltaTime)` does to an obstacle at `p0` heading `d0`:
        one step in its direction, a turn past the patrol range, and on the
        first platform the stepped box overlaps a further turn and a nudge of
        twice the step. */
    predicate PatrolledFrom(p0: Vec3, d0: int, dt: real)
      reads this
    {
      var x1 := Nudge(p0.x, d0, dt);
      var d1 := if Abs(x1 - originX) > range then -d0 else d0;
      var hit := FirstHit(CenteredBox(p0.(x := x1), half), platforms);
      && direction == (if hit.Some? then -d1 else d1)
      && pos == p0.(x := if hit.Some? then Nudge(x1, direction, dt * 2.0) else x1)
    }

    /** One `update(deltaTime)` on from the earlier state. */
    twostate predicate Patrolled(dt: real)
      reads this
    {
      PatrolledFrom(old(pos), old(direction), dt)
    }

    /** `update(deltaTime)`: step, turn at the patrol range, and turn again
        with a nudge of twice the step on the first platform it overlaps. */
    method Update(dt: real)
      requires Valid()
      modifies `pos, `direction
      ensures Valid()
      ensures Patrolled(dt)
    {
      var x1 := Nudge(pos.x, direction, dt);
      pos := pos.(x := x1);
      if Abs(x1 - originX) > range {
        direction := -direction;
      }
      var i := 0;
      while i < |platforms| && !CheckCollision(BoundingBox(), platforms[i].Box())
        invariant 0 <= i <= |platforms|
        invariant forall k :: 0 <= k < i ==> !CheckCollision(BoundingBox(), platforms[k].Box())
      {
        i := i + 1;
      }
      ghost var hit := FirstHit(BoundingBox(), platforms);
      assert hit.Some? ==> hit.value == i;
      if i < |platforms| {
        direction := -direction;
        pos := pos.(x := Nudge(x1, direction, dt * 2.0));
      }
    }
  }

  // ---------------------------------------------------------------------
  // VerticalShooter

  lemma FractionBelow(t: real, w: real)
    requires 0.0 <= t < 1.0 && w > 0.0
    ensures 0.0 <= t * w < w
  {
    assert (1.0 - t) * w == w - t * w;
    assert (1.0 - t) * w > 0.0;
  }

  /** A shooter with a single reusable projectile slot. */
  class VerticalShooter {
    const x: real
    const y: real
    const z: real
    const shootInterval: real
    const projectileSpeed: real
    const maxHeight: real
    const projectileHalf: Vec3
    var shootTimer: real
    var projectileActive: bool
    var projectileY: real
    var projectileVisible: bool
    var projectilePos: Vec3
    var boundingBox: Aabb

    /** The slot is shown exactly while in flight, below its ceiling, and the
        box is empty exactly when the projectile is hidden. */
    ghost predicate Valid()
      reads this
    {
      && projectileVisible == projectileActive
      && (projectileActive ==> projectileY <= maxHeight && projectilePos == Vec3(x, projectileY, z))
      && boundingBox == (if projectileVisible then CenteredBox(projectilePos, projectileHalf) else Empty)
    }

    /** `new VerticalShooter(scene, baseX, baseY, baseZ)`; the four `Math.random()`
        draws are parameters in [0, 1). */
    constructor (baseX: real, baseY: real, baseZ: real, intervalDraw: real, timerDraw: real,
                 speedDraw: real, heightDraw: real, projectileHalf: Vec3)
      requires 0.0 <= intervalDraw < 1.0 && 0.0 <= timerDraw < 1.0
      requires 0.0 <= speedDraw < 1.0 && 0.0 <= heightDraw < 1.0
      ensures Valid() && !projectileActive && boundingBox == Empty
      ensures x == baseX && y == baseY + 0.25 && z == baseZ + 0.1
      ensures shootInterval == 1.2 + intervalDraw * 1.5 && shootTimer == timerDraw * shootInterval
      ensures projectileSpeed == 5.0 + speedDraw * 2.0 && maxHeight == y + 4.0 + heightDraw * 2.0
      ensures projectileY == y && this.projectileHalf == projectileHalf
      ensures 0.0 <= shootTimer < shootInterval && y + 4.0 <= maxHeight
    {
      var interval := 1.2 + intervalDraw * 1.5;
      FractionBelow(timerDraw, interval);
      x, y, z := baseX, baseY + 0.25, baseZ + 0.1;
      shootInterval := interval;
      shootTimer := timerDraw * interval;
      projectileActive := false;
      projectileVisible := false;
      projectileY := baseY + 0.25;
      projectileSpeed := 5.0 + speedDraw * 2.0;
      maxHeight := baseY + 0.25 + 4.0 + heightDraw * 2.0;
      projectilePos := Vec3(0.0, 0.0, baseZ + 0.1);
      this.projectileHalf := projectileHalf;
      boundingBox := Empty;
    }

    /** What `update(deltaTime)` does to a shooter whose timer stood at
        `timer0`, with a shot in flight at `y0` when `active0`: the timer runs
        down and re-arms when a shot is fired from the base into a free slot;
        a shot in flight rises and frees the slot once above `maxHeight`. */
    predicate CycledFrom(timer0: real, active0: bool, y0: real, dt: real)
      reads this
    {
      var fired := !active0 && timer0 - dt <= 0.0;
      && shootTimer == (if fired then shootInterval else timer0 - dt)
      && (active0 || fired ==>
            projectileY == (if fired then y else y0) + projectileSpeed * dt
            && projectileActive == (projectileY <= maxHeight))
      && (!active0 && !fired ==> !projectileActive && projectileY == y0)
    }

    /** One `update(deltaTime)` on from the earlier state. */
    twostate predicate Cycled(dt: real)
      reads this
    {
      CycledFrom(old(shootTimer), old(projectileActive), old(projectileY), dt)
    }

    /** `update(deltaTime)`: fire when the slot is free and the timer has run
        out, rise, and free the slot above `maxHeight`. */
    method Update(dt: real)
      requires Valid()
      modifies this
      ensures Valid()
      ensures Cycled(dt)
    {
      shootTimer := shootTimer - dt;
      if !projectileActive && shootTimer <= 0.0 {
        projectilePos := Vec3(x, y, z);
        projectileVisible := true;
        projectileActive := true;
        projectileY := y;
        shootTimer := shootInterval;
      }
      if projectileActive {
        projectileY := projectileY + projectileSpeed * dt;
        projectilePos := projectilePos.(y := projectileY);
        if projectileY > maxHeight {
          projectileVisible := false;
          projectileActive := false;
        }
      }
      if projectileVisible {
        boundingBox := CenteredBox(projectilePos, projectileHalf);
      } else {
        boundingBox := Empty;
      }
    }
  }

  // ---------------------------------------------------------------------
  // Layout counts of createLevelElements

  /** A ground section: its x extent and the y of the ground block's centre. */
  datatype Section = Section(start: real, end: real, y: real)

  const GroundLength := 18.0
  const LavaLength := 3.0
  const NumSections := 6
  const GroundYs: seq<real> := [-1.0, -0.5, -1.2, 0.0, -0.7, -1.0]

  /** The ground sections in which treasure boxes are placed. */
  const BoxPlacements: seq<nat> := [0, 1, 3, 4, 5]

  /** The ground sections `createLevelElements` lays out: six blocks of
      ground, each followed by a lava gap except the last. */
  method GroundSections() returns (sections: seq<Section>)
    ensures |sections| == NumSections
    ensures forall i :: 0 <= i < |sections| ==>
      sections[i] == Section(21.0 * i as real, 21.0 * i as real + GroundLength, GroundYs[i])
  {
    var x := 0.0;
    sections := [Section(x, x + GroundLength, GroundYs[0])];
    x := x + GroundLength;
    x := x + LavaLength;
    sections := sections + [Section(x, x + GroundLength, GroundYs[1])];
    x := x + GroundLength;
    x := x + LavaLength;
    sections := sections + [Section(x, x + GroundLength, GroundYs[2])];
    x := x + GroundLength;
    x := x + LavaLength;
    for i := 3 to NumSections
      invariant |sections| == i
      invariant x == 21.0 * i as real - (if i == NumSections then LavaLength else 0.0)
      invariant forall k :: 0 <= k < i ==>
        sections[k] == Section(21.0 * k as real, 21.0 * k as real + GroundLength, GroundYs[k])
    {
      sections := sections + [Section(x, x + GroundLength, GroundYs[i])];
      x := x + GroundLength;
      if i < NumSections - 1 {
        x := x + LavaLength;
      }
    }
  }

  function Midpoint(s: Section): real {
    s.start + (s.end - s.start) * 0.5
  }

  /** The box placements of `createLevelElements`: the x of every box whose
      section exists, in placement order. */
  method TreasureBoxSpots(sections: seq<Section>) returns (xs: seq<real>)
    ensures |xs| <= |BoxPlacements|
    ensures |sections| == 0 ==> xs == []
    ensures |sections| >= NumSections ==>
      (|xs| == |BoxPlacements| && forall k :: 0 <= k < |xs| ==> xs[k] == Midpoint(sections[BoxPlacements[k]]))
  {
    xs := [];
    if |sections| > 0 {
      for k := 0 to |BoxPlacements|
        invariant |xs| <= k
        invariant |sections| >= NumSections ==>
          (|xs| == k && forall j :: 0 <= j < k ==> xs[j] == Midpoint(sections[BoxPlacements[j]]))
      {
        var index := BoxPlacements[k];
        if index < |sections| {
          xs := xs + [Midpoint(sections[index])];
        }
      }
    }
  }

  /** The level holds as many treasure boxes as keys are needed to finish it. */
  method TreasureBoxCount() returns (n: nat)
    ensures n == 5
  {
    var sections := GroundSections();
    var xs := TreasureBoxSpots(sections);
    n := |xs|;
  }
}

=== FILE: player.dfy ===
/** player.js `Player`: movement and platform contacts, the death and
    respawn cycle, invincibility blinking, shooting and the projectile pass. */
module Players {
  import opened Basics
  import opened Geometry
  import opened Input
  import opened Level
  import opened Kinematics
  import opened Projectiles

  /** Seconds a dead player waits before respawning. */
  const RespawnCooldown := 1.0
  /** Seconds between shots. */
  const ProjectileCooldown := 0.5
  /** Seconds of invincibility after a respawn. */
  const InvincibleDuration := 5.0
  /** Seconds between visibility toggles while invincible. */
  const BlinkInterval := 0.15
  /** The sprite height; the width follows the texture's aspect ratio. */
  const SpriteHeight := 1.7
  const SpawnPosition := Vec3(0.0, 1.0, 0.0)

  /** The visibility flags of every treasure box, in order. */
  function OpenFlags(boxes: seq<TreasureBox>): (r: seq<bool>)
    reads boxes
    ensures |r| == |boxes| && forall k :: 0 <= k < |boxes| ==> r[k] == boxes[k].isOpen
    decreases |boxes|
  {
    if boxes == [] then [] else OpenFlags(boxes[..|boxes| - 1]) + [boxes[|boxes| - 1].isOpen]
  }

  /** The bounding boxes of the treasure boxes, in order. */
  function BoxExtents(boxes: seq<TreasureBox>): (r: seq<Aabb>)
    reads boxes
    ensures |r| == |boxes| && forall k :: 0 <= k < |boxes| ==> r[k] == boxes[k].boundingBox
    decreases |boxes|
  {
    if boxes == [] then [] else BoxExtents(boxes[..|boxes| - 1]) + [boxes[|boxes| - 1].boundingBox]
  }

  /** The bounding boxes of the obstacles, in order. */
  function ObstacleBoxes(os: seq<MovingObstacle>): (r: seq<Aabb>)
    reads os
    ensures |r| == |os| && forall k :: 0 <= k < |os| ==> r[k] == os[k].BoundingBox()
    decreases |os|
  {
    if os == [] then [] else ObstacleBoxes(os[..|os| - 1]) + [os[|os| - 1].BoundingBox()]
  }

  /** Every treasure box keeps its invariant. */
  ghost predicate AllValid(boxes: seq<TreasureBox>)
    reads boxes
  {
    forall m :: 0 <= m < |boxes| ==> boxes[m].Valid()
  }

  /** A box that stays open, or stays closed, is untouched (an open box keeps
      its key shown or collected); a box that opens shows its key. */
  twostate predicate KeysShownOnOpening(boxes: seq<TreasureBox>)
    reads boxes
  {
    && (forall m :: 0 <= m < |boxes| ==> old(boxes[m].isOpen) || !boxes[m].isOpen ==> unchanged(boxes[m]))
    && (forall m :: 0 <= m < |boxes| ==> !old(boxes[m].isOpen) && boxes[m].isOpen ==> boxes[m].keyVisible)
  }

  /** Opens every treasure box whose flag is set; a box already open stays
      open, so every open box must be flagged. */
  method OpenMarked(boxes: seq<TreasureBox>, flags: seq<bool>)
    requires Distinct(boxes) && |flags| == |boxes|
    requires AllValid(boxes) && forall m :: 0 <= m < |boxes| ==> boxes[m].isOpen ==> flags[m]
    modifies boxes
    ensures AllValid(boxes)
    ensures OpenFlags(boxes) == flags
    ensures BoxExtents(boxes) == old(BoxExtents(boxes))
    ensures KeysShownOnOpening(boxes)
  {
    ghost var extents := BoxExtents(boxes);
    for k := 0 to |boxes|
      invariant forall m :: 0 <= m < |boxes| ==> boxes[m].Valid() && boxes[m].boundingBox == extents[m]
      invariant forall m :: 0 <= m < k ==> boxes[m].isOpen == flags[m]
      invariant forall m :: k <= m < |boxes| ==> unchanged(boxes[m])
      invariant forall m :: k <= m < |boxes| ==> boxes[m].isOpen ==> flags[m]
      invariant forall m :: 0 <= m < k ==> old(boxes[m].isOpen) || !boxes[m].isOpen ==> unchanged(boxes[m])
      invariant forall m :: 0 <= m < k ==> !old(boxes[m].isOpen) && boxes[m].isOpen ==> boxes[m].keyVisible
    {
      var box := boxes[k];
      if flags[k] && !box.isOpen {
        box.Open();
        assert forall m :: 0 <= m < |boxes| && m != k ==> boxes[m] != box;
      }
    }
    assert OpenFlags(boxes) == flags;
    assert BoxExtents(boxes) == extents;
  }

  class Player {
    var pos: Vec3
    var vx: real
    var vy: real
    const width: real
    const height: real
    var isOnGround: bool
    var lastGround: Vec3
    var isDead: bool
    var deathTimer: real
    var jumpsRemaining: int
    var wasJumpPressed: bool
    var projectiles: seq<Shot>
    var shootCooldown: real
    var invincible: bool
    var invincibleTimer: real
    var blinkTimer: real
    var visible: bool
    /** Half extents of a fireball sprite. */
    const shotHalf: Vec3

    /** Jump charges stay within 0..3; a dead player is hidden and cannot be
        invincible, since `die` refuses while invincible and invincibility
        starts only at a respawn. */
    ghost predicate Valid()
      reads this
    {
      && 0 <= jumpsRemaining <= MaxJumps
      && (isDead ==> !visible && !invincible)
      && width >= 0.0 && height >= 0.0
    }

    /** The state the platform pass works on. */
    function Motion(): Body
      reads this
    {
      Body(pos, vx, vy, isOnGround, jumpsRemaining, lastGround)
    }

    /** `getBoundingBox()`. */
    function BoundingBox(): Aabb
      reads this
    {
      PlayerBox(pos, width, height)
    }

    /** The state `new Player` starts in: at the spawn point, at rest and
        airborne with three charges, alive, visible, not invincible, with
        no fireballs and no cooldown. */
    ghost predicate AtStart()
      reads this
    {
      && Motion() == Body(SpawnPosition, 0.0, 0.0, false, MaxJumps, SpawnPosition)
      && !wasJumpPressed && projectiles == [] && shootCooldown == 0.0
      && !isDead && deathTimer == 0.0 && !invincible && invincibleTimer == 0.0 && blinkTimer == 0.0 && visible
    }

    /** `new Player(scene)` once its texture is in: `aspect` is the
        texture's width over its height. */
    constructor (aspect: real, shotHalf: Vec3)
      requires aspect > 0.0
      ensures Valid() && width == SpriteHeight * aspect && height == SpriteHeight && this.shotHalf == shotHalf
      ensures AtStart()
    {
      width, height := SpriteHeight * aspect, SpriteHeight;
      this.shotHalf := shotHalf;
      pos, vx, vy := SpawnPosition, 0.0, 0.0;
      isOnGround, lastGround := false, SpawnPosition;
      isDead, deathTimer := false, 0.0;
      jumpsRemaining, wasJumpPressed := MaxJumps, false;
      projectiles, shootCooldown := [], 0.0;
      invincible, invincibleTimer, blinkTimer := false, 0.0, 0.0;
      visible := true;
    }

    /** The `reset()` that the level restart calls: back to the state the
        constructor leaves, on the same object. */
    method Reset()
      requires Valid()
      modifies this
      ensures Valid() && AtStart()
    {
      ResetMotion();
      ResetStatus();
    }

    /** The movement half of `Reset`. */
    method ResetMotion()
      modifies `pos, `vx, `vy, `isOnGround, `lastGround, `jumpsRemaining, `wasJumpPressed
      ensures Motion() == Body(SpawnPosition, 0.0, 0.0, false, MaxJumps, SpawnPosition) && !wasJumpPressed
    {
      pos, vx, vy := SpawnPosition, 0.0, 0.0;
      isOnGround, lastGround := false, SpawnPosition;
      jumpsRemaining, wasJumpPressed := MaxJumps, false;
    }

    /** The status half of `Reset`. */
    method ResetStatus()
      modifies `isDead, `deathTimer, `projectiles, `shootCooldown, `invincible, `invincibleTimer, `blinkTimer, `visible
      ensures projectiles == [] && shootCooldown == 0.0
      ensures !isDead && deathTimer == 0.0 && !invincible && invincibleTimer == 0.0 && blinkTimer == 0.0 && visible
    {
      isDead, deathTimer := false, 0.0;
      projectiles, shootCooldown := [], 0.0;
      invincible, invincibleTimer, blinkTimer := false, 0.0, 0.0;
      visible := true;
    }

    /** `die()`: ignored while dead or invincible. */
    method Die()
      requires Valid()
      modifies `isDead, `deathTimer, `visible
      ensures Valid()
      ensures old(isDead) || old(invincible) ==> unchanged(this)
      ensures !old(isDead) && !old(invincible) ==> isDead && deathTimer == RespawnCooldown && !visible
    {
      if !isDead && !invincible {
        isDead := true;
        deathTimer := RespawnCooldown;
        visible := false;
      }
    }

    /** `updateDeathTimer(dt)`: once the timer runs out the player reappears
        at the respawn anchor, at rest and invincible for five seconds. */
    method UpdateDeathTimer(dt: real)
      requires Valid()
      modifies `deathTimer, `isDead, `visible, `pos, `vx, `vy, `isOnGround, `invincible, `invincibleTimer
      ensures Valid()
      ensures !old(isDead) ==> unchanged(this)
      ensures old(isDead) ==> deathTimer == old(deathTimer) - dt
      ensures old(isDead) && deathTimer > 0.0 ==>
        isDead && visible == old(visible) && invincible == old(invincible) && Motion() == old(Motion())
      ensures old(isDead) && deathTimer <= 0.0 ==>
        && !isDead && visible && invincible && invincibleTimer == InvincibleDuration
        && Motion() == old(Motion()).(pos := lastGround, vx := 0.0, vy := 0.0, onGround := false)
    {
      if isDead {
        deathTimer := deathTimer - dt;
        if deathTimer <= 0.0 {
          isDead := false;
          visible := true;
          pos := lastGround;
          vx, vy := 0.0, 0.0;
          isOnGround := false;
          invincible := true;
          invincibleTimer := InvincibleDuration;
        }
      }
    }

    /** `shoot()`: spawns one fireball when the cooldown has run out. */
    method Shoot()
      modifies `projectiles, `shootCooldown
      ensures old(shootCooldown) <= 0.0 ==>
        projectiles == old(projectiles) + [Launched(pos, vx, width, shotHalf)] && shootCooldown == ProjectileCooldown
      ensures old(shootCooldown) > 0.0 ==> unchanged(this)
    {
      if shootCooldown <= 0.0 {
        var direction := if vx >= 0.0 then 1.0 else -1.0;
        var start := Vec3(pos.x + direction * width, pos.y, pos.z);
        projectiles := projectiles + [Shot(start, direction * ProjectileSpeed, shotHalf)];
        shootCooldown := ProjectileCooldown;
      }
    }

    /** The `forEach` callback for one platform. */
    method ResolvePlatform(platform: Platform)
      requires Valid()
      modifies `pos, `vx, `vy, `isOnGround, `jumpsRemaining, `lastGround
      ensures Valid()
      ensures Motion() == Resolve(old(Motion()), platform, width, height)
    {
      var playerBox := BoundingBox();
      var platformBox := platform.Box();
      if CheckCollision(playerBox, platformBox) {
        if vy <= 0.0 && playerBox.lo.y < platformBox.hi.y && playerBox.hi.y > platformBox.hi.y {
          pos := pos.(y := platformBox.hi.y + height / 2.0);
          vy := 0.0;
          isOnGround := true;
          jumpsRemaining := MaxJumps;
          if Abs(platformBox.hi.y - GroundTop) < GroundTolerance {
            lastGround := pos;
          }
        } else if playerBox.hi.y > platformBox.lo.y && playerBox.lo.y < platformBox.lo.y {
          if vy > 0.0 {
            pos := pos.(y := platformBox.lo.y - height / 2.0);
            vy := 0.0;
          }
        } else {
          var isMovingTowards := (vx > 0.0 && pos.x < platform.center.x) || (vx < 0.0 && pos.x > platform.center.x);
          if isMovingTowards {
            if vx > 0.0 && playerBox.hi.x > platformBox.lo.x && playerBox.lo.x < platformBox.lo.x {
              pos := pos.(x := platformBox.lo.x - width / 2.0 - SideTolerance);
              vx := 0.0;
            } else if vx < 0.0 && playerBox.lo.x < platformBox.hi.x && playerBox.hi.x > platformBox.hi.x {
              pos := pos.(x := platformBox.hi.x + width / 2.0 + SideTolerance);
              vx := 0.0;
            }
          }
        }
      }
    }

    /** The `platforms.forEach` pass of `update`, in list order. */
    method ResolvePlatforms(platforms: seq<Platform>)
      requires Valid()
      modifies `pos, `vx, `vy, `isOnGround, `jumpsRemaining, `lastGround
      ensures Valid()
      ensures Motion() == ResolveAll(old(Motion()), platforms, width, height)
    {
      var i := 0;
      while i < |platforms|
        invariant 0 <= i <= |platforms|
        invariant Valid()
        invariant Motion() == ResolveAll(old(Motion()), platforms[..i], width, height)
      {
        ResolvePlatform(platforms[i]);
        assert platforms[..i + 1][..i] == platforms[..i];
        i := i + 1;
      }
      assert platforms[..i] == platforms;
    }

    /** The invincibility countdown at the end of `update`: the sprite blinks
        every 0.15 s, and is shown again for good once the timer runs out. */
    method TickInvincibility(dt: real)
      requires Valid() && !isDead
      modifies `invincible, `invincibleTimer, `blinkTimer, `visible
      ensures Valid()
      ensures invincible <==> old(invincible) && old(invincibleTimer) - dt > 0.0
      ensures !invincible ==> visible
      ensures old(invincible) ==> invincibleTimer == old(invincibleTimer) - dt
      ensures !old(invincible) ==> invincibleTimer == old(invincibleTimer) && blinkTimer == old(blinkTimer)
      ensures old(invincible) && old(blinkTimer) + dt > BlinkInterval ==>
        blinkTimer == 0.0 && (invincible ==> visible == !old(visible))
      ensures old(invincible) && old(blinkTimer) + dt <= BlinkInterval ==>
        blinkTimer == old(blinkTimer) + dt && (invincible ==> visible == old(visible))
    {
      if invincible {
        invincibleTimer := invincibleTimer - dt;
        blinkTimer := blinkTimer + dt;
        if blinkTimer > BlinkInterval {
          visible := !visible;
          blinkTimer := 0.0;
        }
        if invincibleTimer <= 0.0 {
          invincible := false;
          visible := true;
        }
      } else {
        visible := true;
      }
    }

    /** The steering part of `update`: horizontal speed from the intents,
        gravity, and the edge-triggered jump. */
    method SteerAndJump(dt: real, keys: Intents)
      requires Valid()
      modifies `vx, `vy, `jumpsRemaining, `isOnGround, `wasJumpPressed
      ensures Valid()
      ensures Motion() == Steer(old(Motion()), keys, old(wasJumpPressed), dt) && wasJumpPressed == keys.jump
    {
      vx := 0.0;
      if keys.left {
        vx := -PlayerSpeed;
      }
      if keys.right {
        vx := PlayerSpeed;
      }
      vy := vy + Gravity * dt;
      if keys.jump && !wasJumpPressed {
        if jumpsRemaining > 0 {
          var jumpForce := if jumpsRemaining == MaxJumps then JumpForce else JumpForce * 0.8;
          vy := Max(jumpForce, vy + jumpForce);
          jumpsRemaining := jumpsRemaining - 1;
          isOnGround := false;
        }
      }
      wasJumpPressed := keys.jump;
    }

    /** The position update of `update`: one step along the velocity. */
    method Move(dt: real)
      modifies `pos
      ensures Motion() == Integrate(old(Motion()), dt)
    {
      var moved := Integrate(Motion(), dt);
      pos := moved.pos;
    }

    /** The movement part of `update`: steer and jump, move, then resolve
        the platform contacts. */
    method Physics(dt: real, keys: Intents, platforms: seq<Platform>)
      requires Valid()
      modifies `pos, `vx, `vy, `isOnGround, `jumpsRemaining, `lastGround, `wasJumpPressed
      ensures Valid()
      ensures Motion() == Step(old(Motion()), keys, old(wasJumpPressed), dt, platforms, width, height)
      ensures wasJumpPressed == keys.jump
    {
      SteerAndJump(dt, keys);
      Move(dt);
      ResolvePlatforms(platforms);
    }

    /** Whether `update` fires: the player is alive, wants to shoot, and the
        cooldown has run out. */
    predicate Armed(keys: Intents)
      reads this
    {
      !isDead && keys.shoot && shootCooldown <= 0.0
    }

    /** The projectiles once `update` has run: one more, launched from the
        player's position before it moves, when it fires. */
    function Loaded(keys: Intents): seq<Shot>
      reads this
    {
      if Armed(keys) then projectiles + [Launched(pos, vx, width, shotHalf)] else projectiles
    }

    /** `update(dt, keys, platforms)`: nothing while dead; otherwise shoot,
        steer, move, resolve platform contacts and tick invincibility. */
    method Update(dt: real, keys: Intents, platforms: seq<Platform>)
      requires Valid()
      modifies `pos, `vx, `vy, `isOnGround, `jumpsRemaining, `lastGround, `wasJumpPressed,
        `projectiles, `shootCooldown, `invincible, `invincibleTimer, `blinkTimer, `visible
      ensures Valid()
      ensures old(isDead) ==> unchanged(this)
      ensures !old(isDead) ==>
        && Motion() == Step(old(Motion()), keys, old(wasJumpPressed), dt, platforms, width, height)
        && wasJumpPressed == keys.jump
      ensures projectiles == old(Loaded(keys))
      ensures shootCooldown == if old(Armed(keys)) then ProjectileCooldown else old(shootCooldown)
      ensures !old(isDead) ==>
        && (invincible <==> old(invincible) && old(invincibleTimer) - dt > 0.0)
        && (old(invincible) ==> invincibleTimer == old(invincibleTimer) - dt)
        && (!invincible ==> visible)
    {
      if isDead {
        return;
      }
      if keys.shoot {
        Shoot();
      }
      Physics(dt, keys, platforms);
      TickInvincibility(dt);
    }

    /** The shot cooldown runs down while positive. */
    method TickCooldown(dt: real)
      modifies `shootCooldown
      ensures shootCooldown == if old(shootCooldown) > 0.0 then old(shootCooldown) - dt else old(shootCooldown)
    {
      if shootCooldown > 0.0 {
        shootCooldown := shootCooldown - dt;
      }
    }

    /** `updateProjectiles(dt, obstacles, treasureBoxes)`: the cooldown ticks
        while positive, then every projectile, last to first, moves and is
        checked against the obstacles, the closed boxes and the distance to
        the player, and is removed at most once. Returns the obstacles still
        standing, in their original order. */
    method UpdateProjectiles(dt: real, obstacles: seq<MovingObstacle>, boxes: seq<TreasureBox>)
      returns (remaining: seq<MovingObstacle>)
      requires Distinct(boxes)
      requires AllValid(boxes)
      modifies `projectiles, `shootCooldown, boxes
      ensures AllValid(boxes)
      ensures shootCooldown == if old(shootCooldown) > 0.0 then old(shootCooldown) - dt else old(shootCooldown)
      ensures PassLeaves(old(Pass(projectiles, ObstacleBoxes(obstacles), OpenFlags(boxes))), old(BoxExtents(boxes)),
                         dt, pos.x, projectiles, OpenFlags(boxes), obstacles, remaining)
      ensures BoxExtents(boxes) == old(BoxExtents(boxes))
      ensures KeysShownOnOpening(boxes)
      ensures forall o :: o in remaining ==> o in obstacles
      ensures Distinct(obstacles) ==> Distinct(remaining)
    {
      var st := Pass(projectiles, ObstacleBoxes(obstacles), OpenFlags(boxes));
      var extents := BoxExtents(boxes);
      TickCooldown(dt);
      var r;
      r, remaining := RunPass(st, obstacles, extents, dt, pos.x);
      RunCorrectedOnlyOpens(st, extents, |st.shots|, dt, pos.x);
      projectiles := r.shots;
      assert forall m :: 0 <= m < |boxes| ==> boxes[m] as object != this;
      OpenMarked(boxes, r.boxOpen);
    }
  }
}

=== FILE: projectiles.dfy ===
/** The player's fireballs (player.js `Projectile`) and the projectile pass of
    `Player.updateProjectiles`, on values: the pass as the code writes it and
    the pass in which a projectile that hits something is removed once. */
module Projectiles {
  import opened Basics
  import opened Geometry

  const ProjectileSpeed := 15.0
  /** Projectiles farther than this from the player, along x, are dropped. */
  const CullDistance := 20.0

  /** A fireball: position, horizontal velocity and the half extents of its sprite. */
  datatype Shot = Shot(pos: Vec3, vx: real, half: Vec3)

  function ShotBox(s: Shot): Aabb {
    CenteredBox(s.pos, s.half)
  }

  /** The fireball `shoot` spawns: facing right unless moving left, one
      player width ahead of the player's centre, at its height and depth. */
  function Launched(from: Vec3, vx: real, width: real, half: Vec3): (s: Shot)
    ensures vx >= 0.0 ==> s.vx == ProjectileSpeed && s.pos.x == from.x + width
    ensures vx < 0.0 ==> s.vx == -ProjectileSpeed && s.pos.x == from.x - width
    ensures s.pos.y == from.y && s.pos.z == from.z && s.half == half
  {
    var direction := if vx >= 0.0 then 1.0 else -1.0;
    Shot(Vec3(from.x + direction * width, from.y, from.z), direction * ProjectileSpeed, half)
  }

  /** `Projectile.update`: moves along x only. */
  function Advanced(s: Shot, dt: real): (r: Shot)
    ensures r.vx == s.vx && r.half == s.half && r.pos.y == s.pos.y && r.pos.z == s.pos.z
    ensures r.pos.x - s.pos.x == s.vx * dt
  {
    s.(pos := s.pos.(x := s.pos.x + s.vx * dt))
  }

  /** The obstacle the inner reverse loop stops at: the last one hit. */
  function LastHit(b: Aabb, os: seq<Aabb>): (r: Option<nat>)
    ensures r.Some? ==> r.value < |os| && CheckCollision(b, os[r.value])
    ensures r.Some? ==> forall k :: r.value < k < |os| ==> !CheckCollision(b, os[k])
    ensures r.None? ==> forall k :: 0 <= k < |os| ==> !CheckCollision(b, os[k])
    decreases |os|
  {
    if os == [] then None
    else if CheckCollision(b, os[|os| - 1]) then Some(|os| - 1)
    else LastHit(b, os[..|os| - 1])
  }

  /** The treasure box the forward loop stops at: the first closed one hit. */
  function FirstClosedHit(b: Aabb, boxes: seq<Aabb>, boxOpen: seq<bool>): (r: Option<nat>)
    requires |boxOpen| == |boxes|
    ensures r.Some? ==> r.value < |boxes| && !boxOpen[r.value] && CheckCollision(b, boxes[r.value])
    ensures r.Some? ==> forall k :: 0 <= k < r.value ==> boxOpen[k] || !CheckCollision(b, boxes[k])
    ensures r.None? ==> forall k :: 0 <= k < |boxes| ==> boxOpen[k] || !CheckCollision(b, boxes[k])
    decreases |boxes|
  {
    if boxes == [] then None
    else if !boxOpen[0] && CheckCollision(b, boxes[0]) then Some(0)
    else match FirstClosedHit(b, boxes[1..], boxOpen[1..])
      case None => None
      case Some(k) => Some(k + 1)
  }

  /** What the pass reads and changes: the projectiles, the obstacles' boxes
      and which treasure boxes are open. */
  datatype Pass = Pass(shots: seq<Shot>, obstacles: seq<Aabb>, boxOpen: seq<bool>)

  /** One iteration of the outer loop for index `i`, as written: after an
      obstacle hit the box and distance checks still run with the same `i`,
      and each of them splices index `i` again. */
  function StepAsWritten(st: Pass, boxes: seq<Aabb>, i: nat, dt: real, playerX: real): (r: Pass)
    requires i < |st.shots| && |st.boxOpen| == |boxes|
    ensures |r.boxOpen| == |boxes| && i <= |r.shots| && r.shots[..i] == st.shots[..i]
  {
    var p := Advanced(st.shots[i], dt);
    var shots0 := st.shots[i := p];
    var oh := LastHit(ShotBox(p), st.obstacles);
    var shots1 := if oh.Some? then Splice(shots0, i) else shots0;
    var obs1 := if oh.Some? then Splice(st.obstacles, oh.value) else st.obstacles;
    var bh := FirstClosedHit(ShotBox(p), boxes, st.boxOpen);
    var shots2 := if bh.Some? then Splice(shots1, i) else shots1;
    var boxOpen2 := if bh.Some? then st.boxOpen[bh.value := true] else st.boxOpen;
    var shots3 := if Abs(p.pos.x - playerX) > CullDistance then Splice(shots2, i) else shots2;
    assert shots0[..i] == st.shots[..i];
    SpliceKeepsPrefix(shots0, i);
    SpliceKeepsPrefix(shots1, i);
    SpliceKeepsPrefix(shots2, i);
    Pass(shots3, obs1, boxOpen2)
  }

  /** The outer loop as written, over indices k-1 down to 0. */
  function RunAsWritten(st: Pass, boxes: seq<Aabb>, k: nat, dt: real, playerX: real): (r: Pass)
    requires k <= |st.shots| && |st.boxOpen| == |boxes|
    ensures |r.boxOpen| == |boxes|
    decreases k
  {
    if k == 0 then st
    else RunAsWritten(StepAsWritten(st, boxes, k - 1, dt, playerX), boxes, k - 1, dt, playerX)
  }

  /** One iteration with each projectile removed at most once: an obstacle hit
      ends it, otherwise a closed-box hit ends it, otherwise the distance cull. */
  function StepCorrected(st: Pass, boxes: seq<Aabb>, i: nat, dt: real, playerX: real): (r: Pass)
    requires i < |st.shots| && |st.boxOpen| == |boxes|
    ensures |r.boxOpen| == |boxes| && |r.shots| >= i && r.shots[..i] == st.shots[..i]
  {
    var p := Advanced(st.shots[i], dt);
    match LastHit(ShotBox(p), st.obstacles)
    case Some(j) => Pass(Splice(st.shots, i), Splice(st.obstacles, j), st.boxOpen)
    case None =>
      match FirstClosedHit(ShotBox(p), boxes, st.boxOpen)
      case Some(j) => Pass(Splice(st.shots, i), st.obstacles, st.boxOpen[j := true])
      case None =>
        if Abs(p.pos.x - playerX) > CullDistance then Pass(Splice(st.shots, i), st.obstacles, st.boxOpen)
        else Pass(st.shots[i := p], st.obstacles, st.boxOpen)
  }

  /** What one corrected iteration does: projectile `i` is replaced by its
      moved self or removed, and removed exactly when it hit an obstacle or a
      closed box or flew too far; an obstacle hit destroys exactly the hit
      obstacle and opens nothing; a box that opens was closed and hit. */
  lemma StepCorrectedEffect(st: Pass, boxes: seq<Aabb>, i: nat, dt: real, playerX: real)
    requires i < |st.shots| && |st.boxOpen| == |boxes|
    ensures var r := StepCorrected(st, boxes, i, dt, playerX);
      var p := Advanced(st.shots[i], dt);
      var removed := LastHit(ShotBox(p), st.obstacles).Some?
        || FirstClosedHit(ShotBox(p), boxes, st.boxOpen).Some?
        || Abs(p.pos.x - playerX) > CullDistance;
      r.shots == st.shots[..i] + (if removed then [] else [p]) + st.shots[i + 1..]
    ensures var r := StepCorrected(st, boxes, i, dt, playerX);
      var p := Advanced(st.shots[i], dt);
      match LastHit(ShotBox(p), st.obstacles)
      case Some(j) => r.obstacles == st.obstacles[..j] + st.obstacles[j + 1..] && r.boxOpen == st.boxOpen
      case None => r.obstacles == st.obstacles
    ensures var r := StepCorrected(st, boxes, i, dt, playerX);
      forall j :: 0 <= j < |boxes| && r.boxOpen[j] != st.boxOpen[j] ==>
        !st.boxOpen[j] && CheckCollision(ShotBox(Advanced(st.shots[i], dt)), boxes[j])
          && r.boxOpen == st.boxOpen[j := true]
  {
    SpliceIsSlices(st.shots, i);
    var p := Advanced(st.shots[i], dt);
    var hit := LastHit(ShotBox(p), st.obstacles);
    if hit.Some? {
      SpliceIsSlices(st.obstacles, hit.value);
    }
  }

  /** The outer loop with `StepCorrected`, over indices k-1 down to 0. */
  function RunCorrected(st: Pass, boxes: seq<Aabb>, k: nat, dt: real, playerX: real): (r: Pass)
    requires k <= |st.shots| && |st.boxOpen| == |boxes|
    ensures |r.boxOpen| == |boxes|
    decreases k
  {
    if k == 0 then st
    else
      var st' := StepCorrected(st, boxes, k - 1, dt, playerX);
      assert |st'.shots| >= k - 1;
      RunCorrected(st', boxes, k - 1, dt, playerX)
  }

  /** Number of open boxes. */
  function CountTrue(s: seq<bool>): (n: nat)
    ensures n <= |s|
    decreases |s|
  {
    if s == [] then 0 else CountTrue(s[..|s| - 1]) + (if s[|s| - 1] then 1 else 0)
  }

  lemma {:induction false} CountTrueSet(s: seq<bool>, j: nat)
    requires j < |s| && !s[j]
    ensures CountTrue(s[j := true]) == CountTrue(s) + 1
    decreases |s|
  {
    var n := |s| - 1;
    if j == n {
      assert s[j := true][..n] == s[..n];
    } else {
      assert s[j := true][..n] == s[..n][j := true];
      CountTrueSet(s[..n], j);
    }
  }

  /** A projectile left in the list is within range of the player and meets
      no remaining obstacle and no closed box. */
  predicate Settled(s: Shot, st: Pass, boxes: seq<Aabb>, playerX: real)
    requires |st.boxOpen| == |boxes|
  {
    && Abs(s.pos.x - playerX) <= CullDistance
    && (forall o :: o in st.obstacles ==> !CheckCollision(ShotBox(s), o))
    && (forall j :: 0 <= j < |boxes| && !st.boxOpen[j] ==> !CheckCollision(ShotBox(s), boxes[j]))
  }

  /** Everything the pass does to obstacles and boxes is paid for by removed
      projectiles: each obstacle destroyed and each box boxOpen costs one. */
  lemma {:induction false} RunCorrectedAccounting(st: Pass, boxes: seq<Aabb>, k: nat, dt: real, playerX: real)
    requires k <= |st.shots| && |st.boxOpen| == |boxes|
    ensures var r := RunCorrected(st, boxes, k, dt, playerX);
      && |r.obstacles| <= |st.obstacles|
      && CountTrue(r.boxOpen) >= CountTrue(st.boxOpen)
      && (|st.obstacles| - |r.obstacles|) + (CountTrue(r.boxOpen) - CountTrue(st.boxOpen)) <= |st.shots| - |r.shots|
    decreases k
  {
    if k > 0 {
      var st' := StepCorrected(st, boxes, k - 1, dt, playerX);
      StepCorrectedEffect(st, boxes, k - 1, dt, playerX);
      RunCorrectedAccounting(st', boxes, k - 1, dt, playerX);
      if st'.boxOpen != st.boxOpen {
        var j :| 0 <= j < |boxes| && st'.boxOpen[j] != st.boxOpen[j];
        CountTrueSet(st.boxOpen, j);
      }
    }
  }

  /** One step only removes obstacles and only opens boxes. */
  lemma StepCorrectedShrinks(st: Pass, boxes: seq<Aabb>, i: nat, dt: real, playerX: real)
    requires i < |st.shots| && |st.boxOpen| == |boxes|
    ensures var r := StepCorrected(st, boxes, i, dt, playerX);
      && (forall j :: 0 <= j < |boxes| && st.boxOpen[j] ==> r.boxOpen[j])
      && (forall o :: o in r.obstacles ==> o in st.obstacles)
  {
    StepCorrectedEffect(st, boxes, i, dt, playerX);
    var p := Advanced(st.shots[i], dt);
    match LastHit(ShotBox(p), st.obstacles)
    case Some(j) =>
      assert st.obstacles == st.obstacles[..j] + [st.obstacles[j]] + st.obstacles[j + 1..];
    case None =>
  }

  /** Boxes only ever open during the pass, and obstacles only disappear. */
  lemma {:induction false} RunCorrectedOnlyOpens(st: Pass, boxes: seq<Aabb>, k: nat, dt: real, playerX: real)
    requires k <= |st.shots| && |st.boxOpen| == |boxes|
    ensures var r := RunCorrected(st, boxes, k, dt, playerX);
      forall j :: 0 <= j < |boxes| && st.boxOpen[j] ==> r.boxOpen[j]
    ensures forall o :: o in RunCorrected(st, boxes, k, dt, playerX).obstacles ==> o in st.obstacles
    decreases k
  {
    if k > 0 {
      var st' := StepCorrected(st, boxes, k - 1, dt, playerX);
      assert |st'.shots| >= k - 1;
      StepCorrectedShrinks(st, boxes, k - 1, dt, playerX);
      RunCorrectedOnlyOpens(st', boxes, k - 1, dt, playerX);
    }
  }

  /** Settledness survives later steps: they only remove obstacles and open boxes. */
  lemma SettledStable(s: Shot, st: Pass, st': Pass, boxes: seq<Aabb>, playerX: real)
    requires |st.boxOpen| == |boxes| && |st'.boxOpen| == |boxes|
    requires Settled(s, st, boxes, playerX)
    requires forall o :: o in st'.obstacles ==> o in st.obstacles
    requires forall j :: 0 <= j < |boxes| && st.boxOpen[j] ==> st'.boxOpen[j]
    ensures Settled(s, st', boxes, playerX)
  {
  }

  /** After the full pass every surviving projectile is settled. */
  lemma {:induction false} RunCorrectedSettles(st: Pass, boxes: seq<Aabb>, k: nat, dt: real, playerX: real)
    requires k <= |st.shots| && |st.boxOpen| == |boxes|
    requires forall m :: k <= m < |st.shots| ==> Settled(st.shots[m], st, boxes, playerX)
    ensures var r := RunCorrected(st, boxes, k, dt, playerX);
      forall m :: 0 <= m < |r.shots| ==> Settled(r.shots[m], r, boxes, playerX)
    decreases k
  {
    if k > 0 {
      var i := k - 1;
      var st' := StepCorrected(st, boxes, i, dt, playerX);
      StepSettles(st, boxes, i, dt, playerX);
      RunCorrectedSettles(st', boxes, i, dt, playerX);
      assert RunCorrected(st, boxes, k, dt, playerX) == RunCorrected(st', boxes, i, dt, playerX);
    }
  }

  /** One corrected iteration at `i` settles projectile `i` or removes it,
      and keeps the projectiles after it settled. */
  lemma StepSettles(st: Pass, boxes: seq<Aabb>, i: nat, dt: real, playerX: real)
    requires i < |st.shots| && |st.boxOpen| == |boxes|
    requires forall m :: i < m < |st.shots| ==> Settled(st.shots[m], st, boxes, playerX)
    ensures var st' := StepCorrected(st, boxes, i, dt, playerX);
      forall m :: i <= m < |st'.shots| ==> Settled(st'.shots[m], st', boxes, playerX)
  {
    var st' := StepCorrected(st, boxes, i, dt, playerX);
    var p := Advanced(st.shots[i], dt);
    StepCorrectedEffect(st, boxes, i, dt, playerX);
    StepCorrectedShrinks(st, boxes, i, dt, playerX);
    forall m | i <= m < |st'.shots|
      ensures Settled(st'.shots[m], st', boxes, playerX)
    {
      if st'.shots == st.shots[..i] + [p] + st.shots[i + 1..] && m == i {
        assert st'.obstacles == st.obstacles && st'.boxOpen == st.boxOpen;
      } else {
        var m0 := if st'.shots == st.shots[..i] + [p] + st.shots[i + 1..] then m else m + 1;
        assert st'.shots[m] == st.shots[m0];
        SettledStable(st.shots[m0], st, st', boxes, playerX);
      }
    }
  }

  /** The whole pass settles every projectile. */
  lemma PassSettlesAll(st: Pass, boxes: seq<Aabb>, dt: real, playerX: real)
    requires |st.boxOpen| == |boxes|
    ensures var r := RunCorrected(st, boxes, |st.shots|, dt, playerX);
      forall m :: 0 <= m < |r.shots| ==> Settled(r.shots[m], r, boxes, playerX)
  {
    RunCorrectedSettles(st, boxes, |st.shots|, dt, playerX);
  }

  lemma LastHitUnique(b: Aabb, os: seq<Aabb>, r: Option<nat>)
    requires r.Some? ==> r.value < |os| && CheckCollision(b, os[r.value])
    requires r.Some? ==> forall k :: r.value < k < |os| ==> !CheckCollision(b, os[k])
    requires r.None? ==> forall k :: 0 <= k < |os| ==> !CheckCollision(b, os[k])
    ensures r == LastHit(b, os)
  {
    var h := LastHit(b, os);
    if r.Some? && h.Some? {
      assert !(r.value < h.value) && !(h.value < r.value);
    }
  }

  lemma FirstClosedHitUnique(b: Aabb, boxes: seq<Aabb>, boxOpen: seq<bool>, r: Option<nat>)
    requires |boxOpen| == |boxes|
    requires r.Some? ==> r.value < |boxes| && !boxOpen[r.value] && CheckCollision(b, boxes[r.value])
    requires r.Some? ==> forall k :: 0 <= k < r.value ==> boxOpen[k] || !CheckCollision(b, boxes[k])
    requires r.None? ==> forall k :: 0 <= k < |boxes| ==> boxOpen[k] || !CheckCollision(b, boxes[k])
    ensures r == FirstClosedHit(b, boxes, boxOpen)
  {
    var h := FirstClosedHit(b, boxes, boxOpen);
    if r.Some? && h.Some? {
      assert !(r.value < h.value) && !(h.value < r.value);
    }
  }

  /** The inner reverse loop over the obstacles, stopping at the first hit. */
  method LastObstacleHit(shotBox: Aabb, obstacleBoxes: seq<Aabb>) returns (hit: Option<nat>)
    ensures hit == LastHit(shotBox, obstacleBoxes)
  {
    hit := None;
    var j := |obstacleBoxes|;
    while j > 0
      invariant 0 <= j <= |obstacleBoxes|
      invariant forall k :: j <= k < |obstacleBoxes| ==> !CheckCollision(shotBox, obstacleBoxes[k])
    {
      j := j - 1;
      if CheckCollision(shotBox, obstacleBoxes[j]) {
        hit := Some(j);
        break;
      }
    }
    LastHitUnique(shotBox, obstacleBoxes, hit);
  }

  /** The forward loop over the treasure boxes, stopping at the first closed
      box hit. */
  method FirstClosedBoxHit(shotBox: Aabb, boxes: seq<Aabb>, boxOpen: seq<bool>) returns (hit: Option<nat>)
    requires |boxOpen| == |boxes|
    ensures hit == FirstClosedHit(shotBox, boxes, boxOpen)
  {
    hit := None;
    var k := 0;
    while k < |boxes|
      invariant 0 <= k <= |boxes|
      invariant forall m :: 0 <= m < k ==> boxOpen[m] || !CheckCollision(shotBox, boxes[m])
    {
      if !boxOpen[k] && CheckCollision(shotBox, boxes[k]) {
        hit := Some(k);
        break;
      }
      k := k + 1;
    }
    FirstClosedHitUnique(shotBox, boxes, boxOpen, hit);
  }

  /** `sub` is the subsequence of `whole` at the strictly increasing
      positions `idx`. */
  ghost predicate Picks<T>(idx: seq<nat>, sub: seq<T>, whole: seq<T>)
  {
    && |idx| == |sub|
    && (forall k :: 0 <= k < |idx| ==> idx[k] < |whole| && sub[k] == whole[idx[k]])
    && (forall k, m :: 0 <= k < m < |idx| ==> idx[k] < idx[m])
  }

  /** `sub` and `sub2` are picked at the same positions of `whole` and
      `whole2`. */
  ghost predicate PickedAlike<A, B>(sub: seq<A>, whole: seq<A>, sub2: seq<B>, whole2: seq<B>)
  {
    exists idx :: Picks(idx, sub, whole) && Picks(idx, sub2, whole2)
  }

  /** Names a pass outcome; `PassLeaves` looks at its run only where a proof
      names the outcome, so that passing the fact on stays cheap. */
  ghost predicate Outcome(r: Pass)
  {
    true
  }

  /** The outcome of the corrected pass over every projectile of `st`:
      `shots` and `boxOpen` are the projectiles and open flags it leaves, and
      `left` keeps, in order, the `tags` of the obstacles that survive it
      (`PassLeavesIff` states it without the quantifier). */
  ghost predicate PassLeaves<T>(st: Pass, boxes: seq<Aabb>, dt: real, playerX: real,
                                shots: seq<Shot>, boxOpen: seq<bool>, tags: seq<T>, left: seq<T>)
  {
    && |st.boxOpen| == |boxes|
    && forall r {:trigger Outcome(r)} :: Outcome(r) && r == RunCorrected(st, boxes, |st.shots|, dt, playerX) ==>
         && shots == r.shots && boxOpen == r.boxOpen
         && PickedAlike(left, tags, r.obstacles, st.obstacles)
  }

  /** `PassLeaves` holds exactly when the run leaves those projectiles, flags
      and surviving tags. */
  lemma PassLeavesIff<T>(st: Pass, boxes: seq<Aabb>, dt: real, playerX: real,
                         shots: seq<Shot>, boxOpen: seq<bool>, tags: seq<T>, left: seq<T>)
    requires |st.boxOpen| == |boxes|
    ensures PassLeaves(st, boxes, dt, playerX, shots, boxOpen, tags, left) <==>
      var r := RunCorrected(st, boxes, |st.shots|, dt, playerX);
      && shots == r.shots && boxOpen == r.boxOpen
      && PickedAlike(left, tags, r.obstacles, st.obstacles)
  {
    assert Outcome(RunCorrected(st, boxes, |st.shots|, dt, playerX));
  }

  /** What is picked comes from the whole. */
  lemma PicksFrom<T>(idx: seq<nat>, sub: seq<T>, whole: seq<T>)
    requires Picks(idx, sub, whole)
    ensures forall x :: x in sub ==> x in whole
  {
    forall x | x in sub
      ensures x in whole
    {
      var k :| 0 <= k < |sub| && sub[k] == x;
      assert whole[idx[k]] == x;
    }
  }

  /** What is picked from a list without repeats has no repeats. */
  lemma PicksDistinct<T>(idx: seq<nat>, sub: seq<T>, whole: seq<T>)
    requires Picks(idx, sub, whole) && Distinct(whole)
    ensures Distinct(sub)
  {
    forall k, m | 0 <= k < m < |sub|
      ensures sub[k] != sub[m]
    {
      assert idx[k] < idx[m];
    }
  }

  lemma PicksSplice<T>(idx: seq<nat>, sub: seq<T>, whole: seq<T>, j: nat)
    requires Picks(idx, sub, whole) && j < |idx|
    ensures Picks(Splice(idx, j), Splice(sub, j), whole)
  {
    var idx', sub' := Splice(idx, j), Splice(sub, j);
    forall k | 0 <= k < |idx'|
      ensures idx'[k] == idx[if k < j then k else k + 1] && sub'[k] == sub[if k < j then k else k + 1]
    {
      if k < j {
        assert idx'[k] == idx[..j][k];
        assert sub'[k] == sub[..j][k];
      } else {
        assert idx'[k] == idx[j + 1..][k - j];
        assert sub'[k] == sub[j + 1..][k - j];
      }
    }
  }

  /** One iteration of the reverse loop of `updateProjectiles`, with the
      projectile removed at most once. `left` travels with the obstacle boxes
      and is spliced in lockstep with them; `hit` is the destroyed obstacle. */
  method PassStep<T>(st: Pass, left: seq<T>, boxes: seq<Aabb>, i: nat, dt: real, playerX: real)
    returns (r: Pass, left': seq<T>, hit: Option<nat>)
    requires i < |st.shots| && |st.boxOpen| == |boxes| && |left| == |st.obstacles|
    ensures r == StepCorrected(st, boxes, i, dt, playerX)
    ensures hit.Some? ==> (hit.value < |left| && left' == Splice(left, hit.value)
      && r.obstacles == Splice(st.obstacles, hit.value))
    ensures hit.None? ==> left' == left && r.obstacles == st.obstacles
  {
    var projectile := Advanced(st.shots[i], dt);
    var shotBox := ShotBox(projectile);
    hit := LastObstacleHit(shotBox, st.obstacles);
    left' := left;
    if hit.Some? {
      left' := Splice(left, hit.value);
      r := Pass(Splice(st.shots, i), Splice(st.obstacles, hit.value), st.boxOpen);
    } else {
      var boxHit := FirstClosedBoxHit(shotBox, boxes, st.boxOpen);
      if boxHit.Some? {
        r := Pass(Splice(st.shots, i), st.obstacles, st.boxOpen[boxHit.value := true]);
      } else if Abs(projectile.pos.x - playerX) > CullDistance {
        r := Pass(Splice(st.shots, i), st.obstacles, st.boxOpen);
      } else {
        r := Pass(st.shots[i := projectile], st.obstacles, st.boxOpen);
      }
    }
  }

  lemma RunCorrectedUnfolds(st: Pass, boxes: seq<Aabb>, i: nat, dt: real, playerX: real)
    requires i < |st.shots| && |st.boxOpen| == |boxes|
    ensures |StepCorrected(st, boxes, i, dt, playerX).shots| >= i
    ensures RunCorrected(st, boxes, i + 1, dt, playerX)
      == RunCorrected(StepCorrected(st, boxes, i, dt, playerX), boxes, i, dt, playerX)
  {
  }

  /** The reverse loop of `updateProjectiles` over every projectile, last to
      first. `tags` stands for the obstacle objects: the caller gets back the
      ones whose boxes survive, in their original order. */
  method RunPass<T(==)>(st: Pass, tags: seq<T>, boxes: seq<Aabb>, dt: real, playerX: real)
    returns (r: Pass, left: seq<T>)
    requires |st.boxOpen| == |boxes| && |tags| == |st.obstacles|
    ensures r == RunCorrected(st, boxes, |st.shots|, dt, playerX)
    ensures PickedAlike(left, tags, r.obstacles, st.obstacles)
    ensures forall x :: x in left ==> x in tags
    ensures Distinct(tags) ==> Distinct(left)
  {
    r := st;
    left := tags;
    ghost var idx: seq<nat> := seq(|tags|, k requires 0 <= k => k as nat);
    var i := |st.shots|;
    while i > 0
      invariant 0 <= i <= |r.shots| && |r.boxOpen| == |boxes|
      invariant RunCorrected(r, boxes, i, dt, playerX) == RunCorrected(st, boxes, |st.shots|, dt, playerX)
      invariant Picks(idx, left, tags) && Picks(idx, r.obstacles, st.obstacles)
    {
      i := i - 1;
      ghost var before, leftBefore := r, left;
      var hit;
      r, left, hit := PassStep(r, left, boxes, i, dt, playerX);
      RunCorrectedUnfolds(before, boxes, i, dt, playerX);
      if hit.Some? {
        PicksSplice(idx, before.obstacles, st.obstacles, hit.value);
        PicksSplice(idx, leftBefore, tags, hit.value);
        idx := Splice(idx, hit.value);
      }
    }
    PicksFrom(idx, left, tags);
    if Distinct(tags) {
      PicksDistinct(idx, left, tags);
    }
  }

  /** Two projectiles, the first overlapping both an obstacle and a closed box,
      the second far from both. */
  const ShotHalf := Vec3(0.3, 0.3, 0.0)
  const Target := Box(Vec3(1.0, -1.0, -1.0), Vec3(2.0, 1.0, 1.0))
  const Example := Pass([Shot(Vec3(0.0, 0.0, 0.0), ProjectileSpeed, ShotHalf),
                         Shot(Vec3(10.0, 0.0, 0.0), ProjectileSpeed, ShotHalf)], [Target], [false])

  /** As written, the first projectile's obstacle hit and box hit both splice
      index 0, so the untouched second projectile is lost as well. */
  lemma DoubleSpliceLosesNeighbour()
    ensures RunAsWritten(Example, [Target], 2, 0.1, 0.0) == Pass([], [], [true])
    ensures RunCorrected(Example, [Target], 2, 0.1, 0.0)
      == Pass([Shot(Vec3(11.5, 0.0, 0.0), ProjectileSpeed, ShotHalf)], [], [false])
  {
    var b' := Shot(Vec3(11.5, 0.0, 0.0), ProjectileSpeed, ShotHalf);
    var a' := Shot(Vec3(1.5, 0.0, 0.0), ProjectileSpeed, ShotHalf);
    assert !CheckCollision(ShotBox(b'), Target);
    assert CheckCollision(ShotBox(a'), Target);
    var s1 := Pass([Example.shots[0], b'], [Target], [false]);
    assert StepAsWritten(Example, [Target], 1, 0.1, 0.0) == s1;
    assert StepAsWritten(s1, [Target], 0, 0.1, 0.0) == Pass([], [], [true]);
    assert StepCorrected(Example, [Target], 1, 0.1, 0.0) == s1;
    assert StepCorrected(s1, [Target], 0, 0.1, 0.0) == Pass([b'], [], [false]);
  }
}

=== FILE: quiz.dfy ===
/** mathQuiz.js: the arithmetic quiz that gates a treasure-box key. */
module Quiz {
  import opened Basics

  datatype Operation = Multiplication | Division

  /** A generated question. For multiplication `left × right`, for division
      `left ÷ right`; `options` is the answer followed by three decoys, before
      the random shuffle. */
  datatype Question = Question(op: Operation, left: int, right: int, answer: int, options: seq<int>)

  /** Correct answers that complete the quiz, and wrong answers that end it. */
  const CorrectNeeded: nat := 3
  const WrongAllowed: nat := 2

  function CorrectAnswer(op: Operation, a: int, b: int): int {
    if op == Multiplication then a * b else b
  }

  /** The range `Math.random` draws decoy options from. */
  predicate InDrawRange(op: Operation, c: int) {
    if op == Multiplication then 9 <= c <= 89 else 3 <= c <= 9
  }

  lemma ProductRange(a: int, b: int)
    requires 3 <= a <= 9 && 3 <= b <= 9
    ensures 9 <= a * b <= 81
  {
    assert 3 * b <= a * b <= 9 * b;
  }

  lemma {:induction false} DistinctSetSize(s: seq<int>)
    requires Distinct(s)
    ensures |set x | x in s| == |s|
  {
    if s != [] {
      var t := s[..|s| - 1];
      assert Distinct(t);
      DistinctSetSize(t);
      assert (set x | x in s) == (set x | x in t) + {s[|s| - 1]};
      assert s[|s| - 1] !in (set x | x in t);
    }
  }

  lemma SubsetSize(a: set<int>, b: set<int>)
    requires a <= b
    ensures |a| <= |b|
  {
    assert b == a + (b - a);
    assert a !! (b - a);
  }

  /** `generateQuestion`: `a` and `b` are the two draws in 3..9 (for division
      `a` is the divisor and `b` the quotient), and `candidates` the decoy
      draws in the order `Math.random` yields them. */
  method GenerateQuestion(op: Operation, a: int, b: int, candidates: seq<int>) returns (q: Question)
    requires 3 <= a <= 9 && 3 <= b <= 9
    requires forall c :: c in candidates ==> InDrawRange(op, c)
    requires |set c | c in candidates && c != CorrectAnswer(op, a, b)| >= 3
    ensures q.op == op && q.answer == CorrectAnswer(op, a, b)
    ensures op == Multiplication ==> q.left == a && q.right == b && 9 <= q.answer <= 81
    ensures op == Division ==> q.left == a * b && q.right == a && q.left == q.right * q.answer && 3 <= q.answer <= 9
    ensures |q.options| == 4 && q.options[0] == q.answer && Distinct(q.options)
    ensures forall o :: o in q.options ==> InDrawRange(op, o)
    ensures forall i :: 1 <= i < 4 ==> q.options[i] in candidates
  {
    var left, right, answer;
    if op == Multiplication {
      left, right, answer := a, b, a * b;
      ProductRange(a, b);
    } else {
      left, right, answer := a * b, a, b;
    }
    var options := [answer];
    var k := 0;
    while |options| < 4
      invariant 0 <= k <= |candidates|
      invariant 1 <= |options| <= 4 && options[0] == answer && Distinct(options)
      invariant forall o :: o in options ==> InDrawRange(op, o)
      invariant forall i :: 1 <= i < |options| ==> options[i] in candidates
      invariant forall c :: c in candidates[..k] ==> c in options
      decreases |candidates| - k
    {
      if k == |candidates| {
        var others := set c | c in candidates && c != answer;
        var taken := set o | o in options && o != answer;
        assert others <= taken;
        assert (set o | o in options) == taken + {answer};
        DistinctSetSize(options);
        SubsetSize(others, taken);
        assert false;
      }
      var option := candidates[k];
      if option !in options {
        options := options + [option];
      }
      k := k + 1;
      assert candidates[..k] == candidates[..k - 1] + [option];
    }
    q := Question(op, left, right, answer, options);
  }

  /** The counters `handleAnswer` and `start` maintain. */
  datatype QuizState = QuizState(correctAnswers: nat, attempts: nat, isActive: bool)

  /** What the dialog does after an answer: show the next question, let the
      player try again, or close and call `onComplete`. */
  datatype Reply = NextQuestion | TryAgain | Finished

  const Started := QuizState(0, 0, true)

  /** `handleAnswer` on the counters, with the one-second delays taken as
      immediate. Wrong answers are counted per quiz, not per question. */
  function Answer(s: QuizState, isCorrect: bool): (r: (QuizState, Reply))
    ensures isCorrect ==> r.0.correctAnswers == s.correctAnswers + 1 && r.0.attempts == s.attempts
    ensures !isCorrect ==> r.0.attempts == s.attempts + 1 && r.0.correctAnswers == s.correctAnswers
    ensures r.1 == Finished <==> if isCorrect then r.0.correctAnswers >= CorrectNeeded else r.0.attempts >= WrongAllowed
    ensures r.1 == NextQuestion <==> isCorrect && r.1 != Finished
    ensures r.0.isActive <==> s.isActive && r.1 != Finished
  {
    if isCorrect then
      var c := s.correctAnswers + 1;
      if c >= CorrectNeeded then (QuizState(c, s.attempts, false), Finished)
      else (QuizState(c, s.attempts, s.isActive), NextQuestion)
    else
      var a := s.attempts + 1;
      if a >= WrongAllowed then (QuizState(s.correctAnswers, a, false), Finished)
      else (QuizState(s.correctAnswers, a, s.isActive), TryAgain)
  }

  /** A run of answers (true = correct) given while the dialog is open: the
      final counters and how many times `onComplete` was called. Answers after
      the dialog closed are never given, since the buttons are gone. */
  function Run(s: QuizState, answers: seq<bool>): (QuizState, nat)
    decreases |answers|
  {
    if answers == [] || !s.isActive then (s, 0)
    else
      var (s', reply) := Answer(s, answers[0]);
      var (f, n) := Run(s', answers[1..]);
      (f, n + if reply == Finished then 1 else 0)
  }

  /** `onComplete` is called at most once per quiz. */
  lemma {:induction false} CompletesAtMostOnce(s: QuizState, answers: seq<bool>)
    ensures Run(s, answers).1 <= 1
    ensures Run(s, answers).1 == 1 ==> !Run(s, answers).0.isActive
    decreases |answers|
  {
    if answers != [] && s.isActive {
      var (s', reply) := Answer(s, answers[0]);
      if reply == Finished {
        assert Run(s', answers[1..]) == (s', 0);
      } else {
        CompletesAtMostOnce(s', answers[1..]);
      }
    }
  }

  /** An open quiz that still lacks `3 - c` correct and `2 - a` wrong answers
      is over after at most `(3 - c) + (2 - a) - 1` more answers, and calls
      `onComplete` exactly once. */
  lemma {:induction false} FinishesWithin(s: QuizState, answers: seq<bool>)
    requires s.isActive && s.correctAnswers < CorrectNeeded && s.attempts < WrongAllowed
    requires |answers| >= (CorrectNeeded - s.correctAnswers) + (WrongAllowed - s.attempts) - 1
    ensures !Run(s, answers).0.isActive && Run(s, answers).1 == 1
    decreases |answers|
  {
    var (s', reply) := Answer(s, answers[0]);
    if reply != Finished {
      FinishesWithin(s', answers[1..]);
    } else {
      assert Run(s', answers[1..]) == (s', 0);
    }
  }

  /** From `start`, any four answers finish the quiz, and a finished quiz has
      either three correct answers or two wrong ones; `onComplete` (which
      awards the key) is called in both cases. */
  lemma QuizEndsWithinFourAnswers(answers: seq<bool>)
    requires |answers| >= 4
    ensures !Run(Started, answers).0.isActive && Run(Started, answers).1 == 1
    ensures Run(Started, answers).0.correctAnswers == CorrectNeeded || Run(Started, answers).0.attempts == WrongAllowed
  {
    FinishesWithin(Started, answers);
    FinishedCounters(Started, answers);
  }

  /** The counters of a quiz run stay within what closes it. */
  lemma {:induction false} FinishedCounters(s: QuizState, answers: seq<bool>)
    requires s.correctAnswers <= CorrectNeeded && s.attempts <= WrongAllowed
    requires s.isActive ==> s.correctAnswers < CorrectNeeded && s.attempts < WrongAllowed
    requires !s.isActive ==> s.correctAnswers == CorrectNeeded || s.attempts == WrongAllowed
    ensures var f := Run(s, answers).0;
      f.correctAnswers <= CorrectNeeded && f.attempts <= WrongAllowed
      && (!f.isActive ==> f.correctAnswers == CorrectNeeded || f.attempts == WrongAllowed)
    decreases |answers|
  {
    if answers != [] && s.isActive {
      FinishedCounters(Answer(s, answers[0]).0, answers[1..]);
    }
  }

  /** One wrong answer, a correct one, then a wrong one on the next question
      ends the quiz: the attempt counter is not reset between questions. */
  lemma WrongAnswersAccumulateAcrossQuestions()
    ensures Run(Started, [false, true, false]) == (QuizState(1, 2, false), 1)
  {
  }

  /** `MathQuiz`: the counters and the active flag, updated in place. The
      `onComplete` callback is kept as the value `C` it acts on. */
  class MathQuiz<C> {
    var correctAnswers: nat
    var attempts: nat
    var isActive: bool
    var current: Option<Question>
    var onComplete: Option<C>

    function State(): QuizState
      reads this
    {
      QuizState(correctAnswers, attempts, isActive)
    }

    constructor ()
      ensures State() == QuizState(0, 0, false) && current == None && onComplete == None
    {
      correctAnswers, attempts, isActive := 0, 0, false;
      current, onComplete := None, None;
    }

    /** `start(onComplete)`; `first` is the question `showQuestion` generates. */
    method Start(callback: C, first: Question)
      modifies this
      ensures State() == Started
      ensures onComplete == Some(callback) && current == Some(first)
    {
      correctAnswers := 0;
      attempts := 0;
      isActive := true;
      onComplete := Some(callback);
      current := Some(first);
    }

    /** `closeDialog`. */
    method CloseDialog()
      modifies this
      ensures !isActive
      ensures correctAnswers == old(correctAnswers) && attempts == old(attempts)
      ensures current == old(current) && onComplete == old(onComplete)
    {
      isActive := false;
    }

    /** `handleAnswer`; `next` is the question shown when the quiz goes on.
        On `Finished` the caller runs `onComplete`. */
    method HandleAnswer(selected: int, next: Question) returns (reply: Reply)
      requires isActive && current.Some?
      modifies this
      ensures (State(), reply) == Answer(old(State()), selected == old(current).value.answer)
      ensures current == if reply == NextQuestion then Some(next) else old(current)
      ensures onComplete == old(onComplete)
    {
      if selected == current.value.answer {
        correctAnswers := correctAnswers + 1;
        if correctAnswers >= CorrectNeeded {
          CloseDialog();
          reply := Finished;
        } else {
          current := Some(next);
          reply := NextQuestion;
        }
      } else {
        attempts := attempts + 1;
        if attempts >= WrongAllowed {
          CloseDialog();
          reply := Finished;
        } else {
          reply := TryAgain;
        }
      }
    }
  }
}
